=== FILE: README.md ===
# Write-ahead log versions and the cache hash table, modelled in Dafny

This project models two parts of a time-series database node.

**The write-ahead log (WAL).** The log is a pure state machine (`Wal.Wal`) with three parts:

- the five version cursors of `pWal->vers`: `firstVer`, `lastVer`, `commitVer`, `snapshotVer` and `verInSnapshotting`;
- the ordered segment descriptor list `fileInfoSet`, one `WalFileInfo` per segment: first and last version, close time, size;
- the records the segment files hold, keyed by version.

Each state-changing entry point is a function that returns the C return code (0 or -1) and the new state. Writing the metadata and reopening are the exceptions: `Wal.WriteMeta` returns what is left on disk and `Wal.Open` returns the reopened log or an error (see "Left out"). The modelled entry points are `walRollFileInfo`, `walWrite`, `walCommit`, `walRollback`, `walBeginTakeSnapshot`, `walEndTakeSnapshot`, `walMetaSerialize`, `walWriteMeta` with `walOpen` (close and reopen), and `walOpenReadHandle` with `walReadWithHandle`.

- `Wal.Valid` is the invariant every reachable state keeps. Each entry point has a lemma proving it is preserved.
- The metadata file is modelled as an encoding of the persisted state to a sequence of integers (`WalMeta`). A decoder is proved to invert it, and reopening is proved to restore the state.
- The sequences of calls made by the log's unit tests are replayed as lemmas (`WalScenarios`). Every value the tests assert is proved for all payloads.

The WAL implementation files are not part of this model. What the transitions do is taken from the unit test `walMetaTest.cpp`. Where the test asserts nothing, the rule is a modelling choice listed under "Left out".

**The cache table (`cacheTable.c`).** A table is an array of buckets. Each bucket heads a singly linked chain of items through their `h_next` field. The model works like this:

- Items live in an arena `map<NodeId, Item>`, and a bucket holds the id of its head.
- Chains are followed by `Chains.Walk`. It returns the visited items when the chain reaches NULL, and `None` on a cycle or a dangling pointer.
- The table's hash function is a parameter.
- Lookup, get and remove are proved against a reference definition: "the first item of the bucket's chain with the key" (`CacheTable.FirstMatch`). Remove is proved to unlink exactly that item.

`cacheTablePut` is modelled as written. Its linking step does not push the item in front of the chain. Instead it makes the item and the old head point at each other, so the chain never reaches NULL again. The intended push is modelled next to it (see "Findings").

## Model

| member | source | states |
|---|---|---|
| Wal.Fresh | source/libs/wal/test/walMetaTest.cpp:22-34 | A log opened on an empty directory has no segment and no record, retains no version, and has no commit, snapshot or snapshot in progress |
| Wal.FreshValid | source/libs/wal/test/walMetaTest.cpp:22-34 | A log opened on an empty directory (every cursor -1, no segment, no record) satisfies the invariant |
| Wal.RollFileInfo | source/libs/wal/test/walMetaTest.cpp:116-125 | Rolling always returns 0, adds exactly one descriptor, `firstVer = lastVer+1`, `lastVer = -1`, `closeTs = -1`, `fileSize = 0`; it stamps the previously open descriptor with the last version and the close time, and leaves cursors, records and older descriptors unchanged |
| Wal.RollFileInfoPreservesValid | source/libs/wal/test/walMetaTest.cpp:127-141 | Rolling keeps the log consistent |
| WalScenarios.CreateNew | source/libs/wal/test/walMetaTest.cpp:116-125 | Rolling a fresh log gives one descriptor (0, -1, -1, 0) |
| WalScenarios.RollTimesSucceeds | source/libs/wal/test/walMetaTest.cpp:127-141 | Any number of consecutive rolls all return 0, each adds one descriptor, and cursors are unchanged |
| WalScenarios.SerializeAfterRolls | source/libs/wal/test/walMetaTest.cpp:127-159 | After six rolls of a fresh log there are six descriptors, writing the metadata succeeds, and reopening gives the same serialised text |
| Wal.Write | source/libs/wal/test/walMetaTest.cpp:192-201 | A write returns 0 exactly when its version is `lastVer+1`. A refused write changes nothing. An accepted one makes the version the last, stores exactly that record and sets `firstVer` on the first write; the open descriptor ends at the version and grows by the payload length (the first write of a log with no descriptor opens one); commit and snapshot cursors stay |
| Wal.WritePreservesValid | source/libs/wal/test/walMetaTest.cpp:165-172 | Writing, accepted or not, keeps the log consistent |
| WalScenarios.WriteAllAdvances | source/libs/wal/test/walMetaTest.cpp:194-201 | Writing n records at consecutive versions succeeds, raises `lastVer` by n, keeps the log consistent and leaves the other cursors alone |
| WalScenarios.WriteAllStores | source/libs/wal/test/walMetaTest.cpp:263-269 | After consecutive writes each new version holds exactly the record written at it |
| WalScenarios.WriteAllKeeps | source/libs/wal/test/walMetaTest.cpp:263-269 | Consecutive writes keep every record stored before them unchanged |
| WalScenarios.WrittenFromFresh | source/libs/wal/test/walMetaTest.cpp:165-172 | Writing versions 0..n-1 into a fresh log gives `firstVer = 0`, `lastVer = n-1` |
| WalScenarios.SkippingWriteRefused | source/libs/wal/test/walMetaTest.cpp:198-200 | After an accepted write at `i`, a write at `i+2` returns -1 and `lastVer` stays `i` |
| WalScenarios.ReadOldMeta | source/libs/wal/test/walMetaTest.cpp:161-190 | Ten writes, close and reopen: the reopened log has `firstVer = 0`, `lastVer = 9` and serialises to the same text as before |
| Wal.Commit | source/libs/wal/test/walMetaTest.cpp:230-231 | A commit succeeds exactly when `commitVer < ver <= lastVer`, then sets `commitVer` to `ver` and nothing else changes; a refused commit changes nothing |
| Wal.CommitPreservesValid | source/libs/wal/test/walMetaTest.cpp:226-232 | Committing keeps the log consistent |
| WalScenarios.WriteCommitAllAdvances | source/libs/wal/test/walMetaTest.cpp:226-232 | Writing then committing each next version in turn always succeeds and leaves `lastVer = commitVer` at the last version written |
| Wal.Rollback | source/libs/wal/test/walMetaTest.cpp:213-218 | A rollback succeeds exactly when no snapshot is in progress and `commitVer < ver <= lastVer`. It then sets `lastVer = ver-1` and keeps exactly the records below `ver`. A refused rollback changes nothing |
| Wal.RollbackPreservesValid | source/libs/wal/test/walMetaTest.cpp:206-221 | Rolling back keeps the log consistent; descriptors that start after the cut are dropped |
| Wal.RollbackTwice | source/libs/wal/test/walMetaTest.cpp:213-218 | Rolling back to `a` and then to a smaller `b` gives exactly the state of rolling back to `b` directly |
| WalScenarios.RollbackScenario | source/libs/wal/test/walMetaTest.cpp:206-221 | Ten writes, rollback to 5 gives `lastVer = 4`, rollback to 3 gives `lastVer = 2`, and the reopened log has `firstVer = 0`, `lastVer = 2` |
| Wal.BeginTakeSnapshot | source/libs/wal/test/walMetaTest.cpp:234-235 | Begin succeeds exactly when no snapshot is in progress and `snapshotVer <= ver <= commitVer` (with `ver >= 0`), and then records `ver` as in progress; nothing else changes |
| Wal.BeginTakeSnapshotPreservesValid | source/libs/wal/test/walMetaTest.cpp:250-251 | Beginning a snapshot keeps the log consistent |
| Wal.EndTakeSnapshot | source/libs/wal/test/walMetaTest.cpp:236-238 | End fails exactly when no snapshot is in progress. Otherwise `snapshotVer` becomes the target, the target is cleared to -1, and only a leading run of closed descriptors that end below the target is dropped. When descriptors are dropped `firstVer` becomes the first kept descriptor's start, otherwise it stays; exactly the records at or above the new `firstVer` are kept, unchanged |
| Wal.EndTakeSnapshotPreservesValid | source/libs/wal/test/walMetaTest.cpp:250-253 | Ending a snapshot keeps the log consistent |
| Wal.EndTakeSnapshotDropsExactlyCovered | source/libs/wal/test/walMetaTest.cpp:236-238 | On a log with at least two descriptors, a closed descriptor is removed exactly when its last version is below the snapshot, and the open (last) one never is |
| Wal.SnapshotBoundaryHolds | source/libs/wal/test/walMetaTest.cpp:234-235 | While a snapshot of `v` is in progress, a write at or below `v` and any rollback return -1 and change nothing |
| Wal.StaleWriteAfterSnapshotRefused | source/libs/wal/test/walMetaTest.cpp:236-241 | After a snapshot ends, a write at or below the snapshotted version returns -1 and changes nothing |
| WalScenarios.SnapshotScenario | source/libs/wal/test/walMetaTest.cpp:223-254 | 100 committed writes, snapshot 99 gives `snapshotVer = 99` and clears the target, a write at 5 is refused, 100 more committed writes reach 199, and snapshot 199 begins and ends with 0 |
| Wal.Serialize | source/libs/wal/test/walMetaTest.cpp:173-187 | The serialised metadata has one header plus one entry per descriptor, and decodes back to exactly the persisted cursors and descriptors |
| WalMeta.DecodeFiles | source/libs/wal/test/walMetaTest.cpp:173-187 | The descriptor decoder accepts every whole number of descriptors, and whatever it accepts re-encodes to its input |
| WalMeta.DecodeEncode | source/libs/wal/test/walMetaTest.cpp:173-187 | Decoding the metadata encoding gives back the persisted cursors and descriptors |
| WalMeta.EncodeInjective | source/libs/wal/test/walMetaTest.cpp:181-187 | Two states serialise to the same text exactly when their persisted parts are equal |
| Wal.WriteMeta | source/libs/wal/test/walMetaTest.cpp:145-158 | Writing metadata leaves a file that decodes to the persisted part of the state, beside the records |
| Wal.Open | source/libs/wal/test/walMetaTest.cpp:175-179 | Opening without metadata gives the fresh log. Opening with metadata succeeds only with a consistent state that serialises back to the file, with no snapshot in progress |
| Wal.ReopenRoundTrip | source/libs/wal/test/walMetaTest.cpp:173-187 | Close and reopen restore the state exactly, except that an in-progress snapshot is forgotten, and the serialised text is unchanged |
| WalRead.OpenReadHandle | source/libs/wal/test/walMetaTest.cpp:259 | A new read handle holds no record yet |
| WalRead.ReadWithHandle | source/libs/wal/test/walMetaTest.cpp:270-290 | A read succeeds exactly when the version is stored. It then holds that version, its message type and body with `len = |body|`, and `curVersion = ver+1`. A failed read leaves the handle alone |
| WalRead.ReadSucceedsOnRetained | source/libs/wal/test/walMetaTest.cpp:270-273 | On a consistent log a read succeeds exactly for versions in `[firstVer, lastVer]` |
| WalScenarios.ReadAfterWrite | source/libs/wal/test/walMetaTest.cpp:256-291 | After writing versions 0..n-1, reading any of them succeeds and returns exactly the body written at it |
| CacheTable.InitBucket | src/cache/src/cacheTable.c:69-73 | A new bucket carries its own index as `hash` and has an empty chain |
| CacheTable.CreateTable | src/cache/src/cacheTable.c:26-67 | The new table has `initNum` buckets, bucket i tagged i with an empty chain, and the given options. It becomes the cache's table head, linked to the former head; other tables are untouched |
| CacheTable.CreateTablePrepends | src/cache/src/cacheTable.c:51-57 | The cache's table list after creation is the new table followed by the former list |
| CacheTable.BucketIndex | src/cache/src/cacheTable.c:77 | The bucket a key hashes to is always a valid index, below the capacity |
| CacheTable.FindItemByKey | src/cache/src/cacheTable.c:75-94 | Lookup returns the first item of the key's bucket chain that has the key, or NULL. The reported predecessor is the item before it, NULL for the head, and the last item when nothing matches |
| CacheTable.RemoveTableItem | src/cache/src/cacheTable.c:96-107 | Unlinking keeps the bucket's index and the set of items; with no item to unlink nothing changes |
| CacheTable.RemoveTableItemUnlinks | src/cache/src/cacheTable.c:96-107 | Unlinking the i-th item of a well-formed chain with its predecessor leaves exactly the chain without that item. The item is detached (table NULL, hash 0), its predecessor skips it, and every other item is unchanged |
| CacheTable.TableGet | src/cache/src/cacheTable.c:129-139 | Get returns an item exactly when the key's bucket holds one with the key; it is the first such item in chain order |
| CacheTable.TableRemove | src/cache/src/cacheTable.c:141-153 | Remove deletes exactly the first item with the key from its bucket chain (nothing when absent). Other buckets stay as they were, no key changes, and only the removed item and its predecessor are modified |
| CacheTable.RemoveForgetsUniqueKey | src/cache/src/cacheTable.c:141-153 | In a bucket with at most one item per key, no item with the key is left after removal |
| CacheTable.UnlinkFirst | src/cache/src/cacheTable.c:115-118 | The first step of put leaves the bucket chain without the old item of the same key; that item is detached (table NULL, hash 0) and only it and its predecessor change |
| CacheTable.TablePut | src/cache/src/cacheTable.c:109-127 | Put as written: the old item with the key is detached, the head left after unlinking stays the head, the item and that head point at each other, the item is tagged with the bucket index and table, other buckets and every other item are as the unlinking left them, and the bucket's chain no longer reaches NULL |
| CacheTable.LinkAsWritten | src/cache/src/cacheTable.c:120-123 | The linking step as written keeps the bucket's head pointer, points the item at the head and the head back at the item, tags the item with the index and table, and touches no other item |
| CacheTable.LinkAsWrittenCycles | src/cache/src/cacheTable.c:120-121 | The linking step of put, as written, leaves a bucket chain that never reaches NULL |
| CacheTable.PushFrontChain | src/cache/src/cacheTable.c:120-121 | Pushing an item not already in a well-formed chain gives that item followed by the old chain |
| CacheTable.TablePutAtHead | src/cache/src/cacheTable.c:109-127 | Put with the intended linking: the bucket chain becomes the new item followed by the old chain minus the old item with the key, still NULL-terminated, every other item is as the unlinking left it, and this works on an empty bucket too |

## Left out

- The WAL implementation files (walMgmt.c, walWrite.c, walMeta.c, walRead.c) are not part of this model. The transitions are built so that every assertion of `walMetaTest.cpp` holds. Where the test asserts nothing, the rules below are modelling choices.
- Wal.Commit: accepts only `commitVer < ver <= lastVer`. The test only commits the version just written.
- Wal.Rollback: refusing `ver > lastVer`, refusing `ver <= commitVer` and refusing while a snapshot is in progress are modelling choices. The test only rolls back uncommitted tails. A rollback reopens the last kept descriptor (`closeTs = -1`) and recounts its size.
- Wal.BeginTakeSnapshot: also refuses a negative target or one below `snapshotVer`, which keeps `snapshotVer` from moving backwards. The test only snapshots at `commitVer`.
- Wal.EndTakeSnapshot: removes only a leading run of closed descriptors that end below the snapshot, never the open one. No retention by period or size is modelled.
- Wal.Write: there is no separate branch refusing writes at or below an in-progress snapshot. Such writes are refused anyway, since `ver == lastVer+1` under the invariant (`Wal.SnapshotBoundaryHolds`). The first write sets `firstVer` and creates a descriptor if none exists.
- Segment roll by elapsed time or by size, and retention by period or size, are not modelled: segments roll only on `walRollFileInfo` and on the first write. The `WalKeepEnv` fixture sets `rollPeriod = -1` and `segSize = -1`; the `WalCleanDeleteEnv` fixture of the `roll` test leaves both at 0, and what the log does with 0 is not modelled.
- Descriptor `fileSize` counts payload bytes only. Record frame headers, checksums and the on-disk record format are not modelled.
- The concrete metadata text format is not modelled. Metadata is an integer sequence with a proved decoder.
- Wal.WriteMeta: returns the disk state, not a return code. Writing cannot fail in the model, which stands for the tests' checks that `walWriteMeta` returns 0; I/O failures are not modelled.
- Wal.Open: returns the reopened log or `CorruptMeta` instead of a handle or NULL.
- A corrupt metadata file makes open fail. Rebuilding the state by scanning the segment files is not modelled.
- Reopen forgets an in-progress snapshot, since `verInSnapshotting` is not persisted.
- Not modelled: file I/O, fsync levels, directory removal, `walInit`/`walCleanUp`, and memory management.
- Locks and concurrent readers are not modelled: every operation is one atomic step.
- The random version choice of the read test (`rand() % 100`) is not modelled; the version is a parameter quantified over all retained versions.
- Allocation and mutex-initialisation failures in `cacheCreateTable` (returning NULL) are not modelled. The fresh table address is a parameter.
- The hash function `taosGetDefaultHashFunction(keyType)` is a parameter. The `pCache` back-pointer and bucket locks are not modelled.
- Keys are byte sequences; the 255-byte limit of `uint8_t nkey` is not modelled.
- A table created with `initNum = 0` is modelled, but every later operation requires at least one bucket. The C code would divide by zero.
- CacheTable.FindItemByKey: requires the key's bucket chain to reach NULL. On a cyclic chain without a match the C loop does not terminate. The requirement also excludes cyclic chains in which a match is reachable, where the C loop does return that match (for example the A↔B cycle left by put, looked up with A's key); those states only arise from put as written.
- CacheTable.UnlinkFirst: requires the key's bucket chain to reach NULL, the same requirement as the lookup it builds on.
- CacheTable.TableGet: the same requirement on the key's bucket chain, inherited from the lookup.
- CacheTable.TableRemove: the same requirement on the key's bucket chain, inherited from the lookup.
- CacheTable.TablePut: requires the bucket to be non-empty once the old item is unlinked, where the C code dereferences a NULL head, and the lookup's requirement that the key's bucket chain reach NULL.
- CacheTable.TablePutAtHead: the lookup's requirement that the key's bucket chain reach NULL, and the new item must not already sit in what is left of the chain after unlinking.
- `source/dnode/mgmt/src/dnodeInt.c` and `tests/develop-test/2-query/escape.py` are not part of this model.

## Findings

| source | as written | input that shows it | evidently intended | confidence | as-written member | corrected member |
|---|---|---|---|---|---|---|
| src/cache/src/cacheTable.c:120-121 | Put sets the new item's `h_next` to the bucket head, then sets the head's `h_next` back to the item, and never makes the item the head | A bucket whose chain is one item A (key "a"); putting item B (key "b") leaves head A, A→B, B→A, a cycle. Any later lookup of a key absent from the bucket loops forever. Putting into an empty bucket dereferences NULL | Push the item in front: its `h_next` becomes the old head and the bucket head becomes the item, leaving a NULL-terminated chain | not executed | CacheTable.LinkAsWrittenCycles | CacheTable.TablePutAtHead |

=== FILE: base.dfy ===
/** Small shared vocabulary: optional values, results, and the fixed-width
    integer ranges the C code works with. */
module Base {

  /** A value that may be absent; `None` plays the part of a NULL pointer. */
  datatype Option<+T> = None | Some(value: T)

  /** The outcome of an operation that can fail with an error value. */
  datatype Result<+T, +E> = Success(value: T) | Failure(error: E)

  /** An unsigned 8-bit value (payload bytes, `uint8_t` fields). */
  type byte = x: int | 0 <= x < 0x100

  /** An unsigned 32-bit value (hash codes, bucket indices). */
  type uint32 = x: int | 0 <= x < 0x1_0000_0000
}

=== FILE: cache_table.dfy ===
/** The bucketed, chained hash table of the cache.

    Items live in an arena (`Heap`, node id -> item) and are chained through
    their `next` field (`h_next`); each bucket holds the head of one chain.
    The table's hash function (`pTable->hashFp`, picked from the key type by
    a library call) is a parameter of every operation. A chain is well formed
    when following `next` from its head reaches NULL; the lookup loop of the
    C code only terminates on such chains in general. */
module CacheTable {
  import opened Base
  import opened Chains

  type NodeId = nat
  type TableId = nat
  type Key = seq<byte>
  type Ptr = Option<NodeId>
  type HashFn = Key -> uint32

  /** A cache item as the table sees it: key, chain successor, the bucket
      index it was stored under and the table that owns it. */
  datatype Item = Item(key: Key, next: Ptr, hash: nat, table: Option<TableId>)

  type Heap = map<NodeId, Item>

  datatype Bucket = Bucket(hash: nat, head: Ptr)

  /** `cacheTableOption`: initial bucket count and key type. */
  datatype TableOption = TableOption(initNum: nat, keyType: int)

  /** `cacheTable`: bucket array, options and the link to the next table of
      the cache. */
  datatype Table = Table(capacity: nat, buckets: seq<Bucket>, option: TableOption, next: Option<TableId>)

  /** `cache_t` as far as tables go: the list of its tables. */
  datatype Cache = Cache(tableHead: Option<TableId>, tables: map<TableId, Table>)

  // ---------------------------------------------------------------------
  // cacheCreateTable / cacheInitBucket
  // ---------------------------------------------------------------------

  /** `cacheInitBucket`: bucket `id` carries its own index and starts with an empty chain. */
  function InitBucket(id: nat): (b: Bucket)
    ensures b.hash == id && b.head.None?
  {
    Bucket(id, None)
  }

  /** `cacheCreateTable`: a table of `option.initNum` empty buckets, bucket
      i tagged with i, pushed at the head of the cache's table list. `id` is
      the fresh address the allocation returns. */
  function CreateTable(cache: Cache, option: TableOption, id: TableId): (r: Cache)
    requires id !in cache.tables
    ensures r.tableHead == Some(id)
    ensures id in r.tables && r.tables[id].next == cache.tableHead
    ensures r.tables[id].capacity == option.initNum == |r.tables[id].buckets|
    ensures forall i | 0 <= i < |r.tables[id].buckets| :: r.tables[id].buckets[i] == Bucket(i, None)
    ensures r.tables[id].option == option
    ensures r.tables.Keys == cache.tables.Keys + {id}
    ensures forall t | t in cache.tables :: r.tables[t] == cache.tables[t]
  {
    var buckets := seq(option.initNum, i requires 0 <= i => InitBucket(i));
    var table := Table(option.initNum, buckets, option, cache.tableHead);
    Cache(Some(id), cache.tables[id := table])
  }

  /** The `next` links of the cache's tables. */
  function TableLinks(cache: Cache): (l: Links<TableId>)
    ensures l.Keys == cache.tables.Keys
    ensures forall t | t in cache.tables :: l[t] == cache.tables[t].next
  {
    map t | t in cache.tables :: cache.tables[t].next
  }

  /** The cache's tables in list order, when the list reaches NULL. */
  function TableList(cache: Cache): Option<seq<TableId>> {
    Walk(TableLinks(cache), cache.tableHead, |cache.tables|)
  }

  /** A new table is put in front of the existing table list. */
  lemma CreateTablePrepends(cache: Cache, option: TableOption, id: TableId)
    requires id !in cache.tables
    requires TableList(cache).Some?
    ensures TableList(CreateTable(cache, option, id)) == Some([id] + TableList(cache).value)
  {
    var c' := CreateTable(cache, option, id);
    var l := TableLinks(cache);
    var l' := TableLinks(c');
    assert |c'.tables| == |cache.tables| + 1;
    WalkFrame(l, l', cache.tableHead, |cache.tables|);
  }

  // ---------------------------------------------------------------------
  // Chains of a table
  // ---------------------------------------------------------------------

  /** Successor links of the item arena. */
  function NextLinks(heap: Heap): (l: Links<NodeId>)
    ensures l.Keys == heap.Keys
    ensures forall n | n in heap :: l[n] == heap[n].next
  {
    map n | n in heap :: heap[n].next
  }

  /** The items of the chain starting at `p`, when it reaches NULL. */
  function Chain(heap: Heap, p: Ptr): Option<seq<NodeId>> {
    Walk(NextLinks(heap), p, |heap|)
  }

  /** The table's shape as allocated: at least one bucket (the bucket index
      divides by the capacity) and one bucket per unit of capacity. */
  predicate TableOk(t: Table) {
    t.capacity > 0 && |t.buckets| == t.capacity
  }

  /** `hashFp(key) % capacity`, the bucket every operation works on. */
  function BucketIndex(hashFp: HashFn, key: Key, capacity: nat): (b: nat)
    requires capacity > 0
    ensures 0 <= b < capacity
  {
    hashFp(key) % capacity
  }

  /** The items chained from bucket `b`. */
  function BucketChain(t: Table, heap: Heap, b: nat): Option<seq<NodeId>>
    requires b < |t.buckets|
  {
    Chain(heap, t.buckets[b].head)
  }

  /** The bucket `key` hashes to has a chain that reaches NULL. */
  predicate KeyBucketOk(t: Table, heap: Heap, hashFp: HashFn, key: Key) {
    TableOk(t) && BucketChain(t, heap, BucketIndex(hashFp, key, t.capacity)).Some?
  }

  /** Position of the first item of `nodes` with the given key; |nodes| when
      there is none. */
  function FirstMatch(heap: Heap, nodes: seq<NodeId>, key: Key): (i: nat)
    requires forall n | n in nodes :: n in heap
    ensures i <= |nodes|
    ensures forall j | 0 <= j < i :: heap[nodes[j]].key != key
    ensures i < |nodes| ==> heap[nodes[i]].key == key
  {
    if |nodes| == 0 || heap[nodes[0]].key == key then 0 else 1 + FirstMatch(heap, nodes[1..], key)
  }

  /** `nodes` without its i-th element (unchanged when i is out of range). */
  function RemoveAt(nodes: seq<NodeId>, i: nat): seq<NodeId> {
    if i < |nodes| then nodes[..i] + nodes[i + 1..] else nodes
  }

  /** Changing anything but `next` leaves every chain as it was. */
  lemma NextLinksKeep(heap: Heap, n: NodeId, it: Item)
    requires n in heap && it.next == heap[n].next
    ensures NextLinks(heap[n := it]) == NextLinks(heap)
  {
  }

  /** Redirecting one item's `next` redirects exactly that link. */
  lemma NextLinksRedirect(heap: Heap, n: NodeId, it: Item)
    requires n in heap
    ensures NextLinks(heap[n := it]) == NextLinks(heap)[n := it.next]
  {
  }

  // ---------------------------------------------------------------------
  // cacheFindItemByKey
  // ---------------------------------------------------------------------

  /** `cacheFindItemByKey`: walks the key's bucket from its head and returns
      the first item with the key, or NULL. When `wantPrev` (a non-NULL
      `ppPrev`), `prev` is the item visited just before stopping: the
      match's predecessor, NULL when the match is the head, and the chain's
      last item when nothing matches. */
  method FindItemByKey(t: Table, heap: Heap, hashFp: HashFn, key: Key, wantPrev: bool)
    returns (item: Ptr, prev: Ptr)
    requires KeyBucketOk(t, heap, hashFp, key)
    ensures var nodes := BucketChain(t, heap, BucketIndex(hashFp, key, t.capacity)).value;
      var i := FirstMatch(heap, nodes, key);
      && item == (if i < |nodes| then Some(nodes[i]) else None)
      && prev == (if wantPrev && i > 0 then Some(nodes[i - 1]) else None)
  {
    var index := BucketIndex(hashFp, key, t.capacity);
    ghost var nodes := BucketChain(t, heap, index).value;
    ghost var links := NextLinks(heap);
    var p := t.buckets[index].head;
    prev := None;
    ghost var k := 0;
    while p.Some?
      invariant 0 <= k <= |nodes|
      invariant p == (if k < |nodes| then Some(nodes[k]) else None)
      invariant forall j | 0 <= j < k :: heap[nodes[j]].key != key
      invariant prev == (if wantPrev && k > 0 then Some(nodes[k - 1]) else None)
      decreases |nodes| - k
    {
      WalkNext(links, t.buckets[index].head, |heap|, k);
      var it := heap[p.value];
      if it.key == key {
        item := p;
        return;
      }
      if wantPrev {
        prev := p;
      }
      p := it.next;
      k := k + 1;
    }
    item := None;
  }

  // ---------------------------------------------------------------------
  // cacheRemoveTableItem
  // ---------------------------------------------------------------------

  /** `cacheRemoveTableItem`: nothing for a NULL item; otherwise the
      predecessor (if any) is pointed past the item, the bucket head too if
      it is the item, and the item forgets its table and bucket index. */
  function RemoveTableItem(bucket: Bucket, heap: Heap, item: Ptr, prev: Ptr): (r: (Bucket, Heap))
    requires item.Some? ==> item.value in heap
    requires item.Some? && prev.Some? ==> prev.value in heap
    ensures r.0.hash == bucket.hash && r.1.Keys == heap.Keys
    ensures item.None? ==> r == (bucket, heap)
  {
    if item.None? then (bucket, heap)
    else
      var n := item.value;
      var heap1 := if prev.Some? then heap[prev.value := heap[prev.value].(next := heap[n].next)] else heap;
      var bucket1 := if bucket.head == item then bucket.(head := heap1[n].next) else bucket;
      (bucket1, heap1[n := heap1[n].(table := None, hash := 0)])
  }

  /** Unlinking the head of a well-formed chain leaves its tail. */
  lemma UnlinkHead(bucket: Bucket, heap: Heap, nodes: seq<NodeId>)
    requires Chain(heap, bucket.head) == Some(nodes) && |nodes| > 0
    ensures var r := RemoveTableItem(bucket, heap, Some(nodes[0]), None);
      Chain(r.1, r.0.head) == Some(nodes[1..])
  {
    var links := NextLinks(heap);
    var n := nodes[0];
    NextLinksKeep(heap, n, heap[n].(table := None, hash := 0));
    WalkNext(links, bucket.head, |heap|, 0);
    WalkSuffix(links, bucket.head, |heap|, 0);
    assert nodes == [n] + Walk(links, links[n], |heap| - 1).value;
    WalkMoreFuel(links, links[n], |heap| - 1, |heap|);
  }

  /** Unlinking the i-th item (i > 0) of a well-formed chain through its
      predecessor leaves the chain without that item. */
  lemma UnlinkInner(bucket: Bucket, heap: Heap, nodes: seq<NodeId>, i: nat)
    requires Chain(heap, bucket.head) == Some(nodes) && 0 < i < |nodes|
    ensures var r := RemoveTableItem(bucket, heap, Some(nodes[i]), Some(nodes[i - 1]));
      Chain(r.1, r.0.head) == Some(nodes[..i] + nodes[i + 1..])
  {
    var links := NextLinks(heap);
    var n := nodes[i];
    var heap1 := heap[nodes[i - 1] := heap[nodes[i - 1]].(next := heap[n].next)];
    WalkDistinct(links, bucket.head, |heap|);
    assert bucket.head == Some(nodes[0]) && nodes[0] != n;
    NextLinksRedirect(heap, nodes[i - 1], heap1[nodes[i - 1]]);
    WalkSplice(links, bucket.head, |heap|, i);
    NextLinksKeep(heap1, n, heap1[n].(table := None, hash := 0));
  }

  /** Unlinking the first item with a key, with the predecessor the lookup
      reports, removes exactly that item from the chain. */
  lemma RemoveTableItemUnlinks(bucket: Bucket, heap: Heap, nodes: seq<NodeId>, i: nat)
    requires Chain(heap, bucket.head) == Some(nodes)
    requires i <= |nodes|
    ensures var item := if i < |nodes| then Some(nodes[i]) else None;
      var prev := if i > 0 then Some(nodes[i - 1]) else None;
      var r := RemoveTableItem(bucket, heap, item, prev);
      && Chain(r.1, r.0.head) == Some(RemoveAt(nodes, i))
      && (forall n | n in heap && (i >= |nodes| || (n != nodes[i] && (i == 0 || n != nodes[i - 1]))) ::
            r.1[n] == heap[n])
      && (i < |nodes| ==> r.1[nodes[i]] == heap[nodes[i]].(table := None, hash := 0))
      && (0 < i < |nodes| ==> r.1[nodes[i - 1]] == heap[nodes[i - 1]].(next := heap[nodes[i]].next))
  {
    if i < |nodes| {
      WalkDistinct(NextLinks(heap), bucket.head, |heap|);
      if i == 0 {
        UnlinkHead(bucket, heap, nodes);
        assert RemoveAt(nodes, 0) == nodes[1..];
      } else {
        UnlinkInner(bucket, heap, nodes, i);
      }
    }
  }

  // ---------------------------------------------------------------------
  // cacheTableGet / cacheTableRemove / cacheTablePut
  // ---------------------------------------------------------------------

  /** `cacheTableGet`: the first item of the key's bucket with the key, or
      NULL when the bucket has none. */
  method TableGet(t: Table, heap: Heap, hashFp: HashFn, key: Key) returns (item: Ptr)
    requires KeyBucketOk(t, heap, hashFp, key)
    ensures var nodes := BucketChain(t, heap, BucketIndex(hashFp, key, t.capacity)).value;
      && (item.Some? <==> exists j | 0 <= j < |nodes| :: heap[nodes[j]].key == key)
      && (item.Some? ==> item.value in nodes && heap[item.value].key == key)
      && (item.Some? ==> forall j | 0 <= j < |nodes| && nodes[j] != item.value && heap[nodes[j]].key == key ::
            exists m | 0 <= m < j :: nodes[m] == item.value)
  {
    var prev;
    item, prev := FindItemByKey(t, heap, hashFp, key, false);
    ghost var nodes := BucketChain(t, heap, BucketIndex(hashFp, key, t.capacity)).value;
    ghost var i := FirstMatch(heap, nodes, key);
    if item.Some? {
      forall j | 0 <= j < |nodes| && nodes[j] != item.value && heap[nodes[j]].key == key
        ensures exists m | 0 <= m < j :: nodes[m] == item.value
      {
        assert i <= j && i != j;
        assert nodes[i] == item.value;
      }
    }
  }

  /** `cacheTableRemove`: unlinks the first item of the key's bucket that
      has the key. Only that chain changes: other buckets and the table's
      shape stay, and besides the removed item (which forgets its table and
      index) only its predecessor's `next` changes. */
  method TableRemove(t: Table, heap: Heap, hashFp: HashFn, key: Key) returns (t': Table, heap': Heap)
    requires KeyBucketOk(t, heap, hashFp, key)
    ensures var b := BucketIndex(hashFp, key, t.capacity);
      var nodes := BucketChain(t, heap, b).value;
      var i := FirstMatch(heap, nodes, key);
      && TableOk(t')
      && t'.capacity == t.capacity && t'.option == t.option && t'.next == t.next
      && (forall c | 0 <= c < |t.buckets| && c != b :: t'.buckets[c] == t.buckets[c])
      && t'.buckets[b].hash == t.buckets[b].hash
      && BucketChain(t', heap', b) == Some(RemoveAt(nodes, i))
      && heap'.Keys == heap.Keys
      && (forall n | n in heap && (i >= |nodes| || (n != nodes[i] && (i == 0 || n != nodes[i - 1]))) ::
            heap'[n] == heap[n])
      && (i < |nodes| ==> heap'[nodes[i]] == heap[nodes[i]].(table := None, hash := 0))
      && (forall n | n in heap :: heap'[n].key == heap[n].key)
  {
    var index := BucketIndex(hashFp, key, t.capacity);
    var item, prev := FindItemByKey(t, heap, hashFp, key, true);
    ghost var nodes := BucketChain(t, heap, index).value;
    ghost var i := FirstMatch(heap, nodes, key);
    RemoveTableItemUnlinks(t.buckets[index], heap, nodes, i);
    var r := RemoveTableItem(t.buckets[index], heap, item, prev);
    t' := t.(buckets := t.buckets[index := r.0]);
    heap' := r.1;
  }

  /** When a bucket holds at most one item per key, what is left after the
      removal of the first item with a key holds no item with that key, so a
      later lookup of the key finds nothing. */
  lemma RemoveForgetsUniqueKey(heap: Heap, nodes: seq<NodeId>, key: Key)
    requires forall n | n in nodes :: n in heap
    requires forall j, k | 0 <= j < k < |nodes| && heap[nodes[j]].key == key :: heap[nodes[k]].key != key
    ensures forall n | n in RemoveAt(nodes, FirstMatch(heap, nodes, key)) :: heap[n].key != key
  {
    var i := FirstMatch(heap, nodes, key);
    if i < |nodes| {
      forall n | n in RemoveAt(nodes, i)
        ensures heap[n].key != key
      {
        var j :| 0 <= j < |RemoveAt(nodes, i)| && RemoveAt(nodes, i)[j] == n;
        if j >= i {
          assert n == nodes[j + 1];
        }
      }
    }
  }

  /** The linking step of `cacheTablePut` as written: the item's `next`
      becomes the bucket head, the head's `next` becomes the item, and the
      item is tagged with the bucket index and the table. The bucket's head
      pointer itself is not touched. */
  function LinkAsWritten(bucket: Bucket, heap: Heap, item: NodeId, index: nat, self: TableId): (r: (Bucket, Heap))
    requires item in heap
    requires bucket.head.Some? && bucket.head.value in heap
    ensures r.0 == bucket && r.1.Keys == heap.Keys
    ensures r.1[item].next == bucket.head && r.1[bucket.head.value].next == Some(item)
    ensures r.1[item].hash == index && r.1[item].table == Some(self) && r.1[item].key == heap[item].key
    ensures forall n | n in heap && n != item && n != bucket.head.value :: r.1[n] == heap[n]
  {
    var h := bucket.head.value;
    var heap1 := heap[item := heap[item].(next := bucket.head)];
    var heap2 := heap1[h := heap1[h].(next := Some(item))];
    (bucket, heap2[item := heap2[item].(hash := index, table := Some(self))])
  }

  /** After the linking step as written the bucket's chain never reaches
      NULL: the head and the item point at each other. */
  lemma LinkAsWrittenCycles(bucket: Bucket, heap: Heap, item: NodeId, index: nat, self: TableId)
    requires item in heap
    requires bucket.head.Some? && bucket.head.value in heap
    ensures var r := LinkAsWritten(bucket, heap, item, index, self);
      Chain(r.1, r.0.head) == None
  {
    var r := LinkAsWritten(bucket, heap, item, index, self);
    TwoCycleNeverEnds(NextLinks(r.1), bucket.head.value, item, |r.1|);
  }

  /** The bucket, its head and the arena once the first item with `key`
      is unlinked, as `cacheTablePut` and `cacheTableRemove` leave them. */
  function UnlinkFirst(t: Table, heap: Heap, hashFp: HashFn, key: Key): (r: (Bucket, Heap))
    requires KeyBucketOk(t, heap, hashFp, key)
    ensures var nodes := BucketChain(t, heap, BucketIndex(hashFp, key, t.capacity)).value;
      Chain(r.1, r.0.head) == Some(RemoveAt(nodes, FirstMatch(heap, nodes, key)))
    ensures r.1.Keys == heap.Keys
    ensures var nodes := BucketChain(t, heap, BucketIndex(hashFp, key, t.capacity)).value;
      var i := FirstMatch(heap, nodes, key);
      && (i < |nodes| ==> r.1[nodes[i]] == heap[nodes[i]].(table := None, hash := 0))
      && (forall n | n in heap && (i >= |nodes| || (n != nodes[i] && (i == 0 || n != nodes[i - 1]))) ::
            r.1[n] == heap[n])
  {
    var b := BucketIndex(hashFp, key, t.capacity);
    var nodes := BucketChain(t, heap, b).value;
    var i := FirstMatch(heap, nodes, key);
    RemoveTableItemUnlinks(t.buckets[b], heap, nodes, i);
    RemoveTableItem(t.buckets[b], heap, if i < |nodes| then Some(nodes[i]) else None, if i > 0 then Some(nodes[i - 1]) else None)
  }

  /** `cacheTablePut`, as written: unlinks the first item with the new
      item's key, then links the item as `LinkAsWritten` does. The second
      store dereferences the bucket head, so the bucket must not be empty
      once the old item is gone. The head stays the head, the head and the
      item point at each other (the head's former successors are no longer
      reachable), and the chain never reaches NULL again. */
  method TablePut(t: Table, self: TableId, heap: Heap, hashFp: HashFn, item: NodeId)
    returns (t': Table, heap': Heap)
    requires item in heap
    requires KeyBucketOk(t, heap, hashFp, heap[item].key)
    requires UnlinkFirst(t, heap, hashFp, heap[item].key).0.head.Some?
    ensures var b := BucketIndex(hashFp, heap[item].key, t.capacity);
      var h := UnlinkFirst(t, heap, hashFp, heap[item].key).0.head.value;
      && TableOk(t') && t'.capacity == t.capacity && t'.option == t.option && t'.next == t.next
      && (forall c | 0 <= c < |t.buckets| && c != b :: t'.buckets[c] == t.buckets[c])
      && t'.buckets[b].hash == t.buckets[b].hash && t'.buckets[b].head == Some(h)
      && heap'.Keys == heap.Keys
      && heap'[item].hash == b && heap'[item].table == Some(self)
      && heap'[item].next == Some(h) && heap'[h].next == Some(item)
      && BucketChain(t', heap', b).None?
    ensures var u := UnlinkFirst(t, heap, hashFp, heap[item].key);
      var h := u.0.head.value;
      forall n | n in heap && n != item && n != h :: heap'[n] == u.1[n]
    ensures var nodes := BucketChain(t, heap, BucketIndex(hashFp, heap[item].key, t.capacity)).value;
      var i := FirstMatch(heap, nodes, heap[item].key);
      var h := UnlinkFirst(t, heap, hashFp, heap[item].key).0.head.value;
      i < |nodes| && nodes[i] != item && nodes[i] != h ==>
        heap'[nodes[i]] == heap[nodes[i]].(table := None, hash := 0)
  {
    var key := heap[item].key;
    var index := BucketIndex(hashFp, key, t.capacity);
    var found, prev := FindItemByKey(t, heap, hashFp, key, true);
    var r := RemoveTableItem(t.buckets[index], heap, found, prev);
    assert r == UnlinkFirst(t, heap, hashFp, key);
    var bucket := r.0;
    var heap1 := r.1;
    assert bucket.head.value in heap1 by {
      WalkNext(NextLinks(heap1), bucket.head, |heap1|, 0);
    }
    var r2 := LinkAsWritten(bucket, heap1, item, index, self);
    LinkAsWrittenCycles(bucket, heap1, item, index, self);
    t' := t.(buckets := t.buckets[index := r2.0]);
    heap' := r2.1;
  }

  /** What the linking step of `cacheTablePut` evidently means to do: the
      item goes in front of the bucket's chain and becomes its head. */
  function PushFront(bucket: Bucket, heap: Heap, item: NodeId, index: nat, self: TableId): (r: (Bucket, Heap))
    requires item in heap
    ensures r.0 == bucket.(head := Some(item)) && r.1.Keys == heap.Keys
    ensures r.1[item] == heap[item].(next := bucket.head, hash := index, table := Some(self))
    ensures forall n | n in heap && n != item :: r.1[n] == heap[n]
  {
    (bucket.(head := Some(item)), heap[item := heap[item].(next := bucket.head, hash := index, table := Some(self))])
  }

  /** Pushing an item that is not already in a well-formed chain gives the
      same chain with the item in front. */
  lemma PushFrontChain(bucket: Bucket, heap: Heap, item: NodeId, index: nat, self: TableId, rest: seq<NodeId>)
    requires item in heap && item !in rest
    requires Chain(heap, bucket.head) == Some(rest)
    ensures var r := PushFront(bucket, heap, item, index, self);
      Chain(r.1, r.0.head) == Some([item] + rest)
  {
    var r := PushFront(bucket, heap, item, index, self);
    var links := NextLinks(heap);
    NextLinksRedirect(heap, item, r.1[item]);
    var links' := NextLinks(r.1);
    WalkFrame(links, links', bucket.head, |heap|);
    WalkDistinct(links, bucket.head, |heap|);
    DistinctFits([item] + rest, heap.Keys);
    WalkEnoughFuel(links', bucket.head, |heap|, |r.1| - 1);
  }

  /** The items of the key's bucket once its first item with the key is
      unlinked. */
  function Remainder(t: Table, heap: Heap, hashFp: HashFn, key: Key): seq<NodeId>
    requires KeyBucketOk(t, heap, hashFp, key)
  {
    var nodes := BucketChain(t, heap, BucketIndex(hashFp, key, t.capacity)).value;
    RemoveAt(nodes, FirstMatch(heap, nodes, key))
  }

  /** `cacheTablePut` with the linking step it evidently intends: the old
      item with the key is gone and the new item heads the bucket, in front
      of the rest of the chain, which stays well formed. Works on an empty
      bucket too. */
  method TablePutAtHead(t: Table, self: TableId, heap: Heap, hashFp: HashFn, item: NodeId)
    returns (t': Table, heap': Heap)
    requires item in heap
    requires KeyBucketOk(t, heap, hashFp, heap[item].key)
    requires item !in Remainder(t, heap, hashFp, heap[item].key)
    ensures TableOk(t') && t'.capacity == t.capacity && t'.option == t.option && t'.next == t.next
    ensures heap'.Keys == heap.Keys
    ensures var b := BucketIndex(hashFp, heap[item].key, t.capacity);
      && (forall c | 0 <= c < |t.buckets| && c != b :: t'.buckets[c] == t.buckets[c])
      && t'.buckets[b].hash == t.buckets[b].hash
      && t'.buckets[b].head == Some(item)
      && heap'[item].hash == b && heap'[item].table == Some(self)
      && BucketChain(t', heap', b) == Some([item] + Remainder(t, heap, hashFp, heap[item].key))
    ensures var u := UnlinkFirst(t, heap, hashFp, heap[item].key).1;
      forall n | n in heap && n != item :: heap'[n] == u[n]
  {
    var key := heap[item].key;
    var index := BucketIndex(hashFp, key, t.capacity);
    var found, prev := FindItemByKey(t, heap, hashFp, key, true);
    var r := RemoveTableItem(t.buckets[index], heap, found, prev);
    assert r == UnlinkFirst(t, heap, hashFp, key);
    PushFrontChain(r.0, r.1, item, index, self, Remainder(t, heap, hashFp, key));
    var r2 := PushFront(r.0, r.1, item, index, self);
    t' := t.(buckets := t.buckets[index := r2.0]);
    heap' := r2.1;
  }
}

=== FILE: chains.dfy ===
/** Singly linked chains kept in an arena.

    An arena is viewed through its successor links: each node id maps to the
    id stored in its `next` field, or `None` for NULL. Following the links
    from a start pointer either reaches NULL (the chain is well formed and
    the nodes it visits are returned) or does not within the fuel given (a
    cycle) or meets a node that is not in the arena (a dangling pointer). */
module Chains {
  import opened Base

  type Links<K> = map<K, Option<K>>

  /** No element occurs twice. */
  predicate Distinct<K(==)>(s: seq<K>) {
    forall i, j | 0 <= i < j < |s| :: s[i] != s[j]
  }

  /** The nodes visited from `p`, in order, when NULL is reached in at most
      `fuel` steps through nodes of the arena; `None` otherwise. */
  function Walk<K(==)>(links: Links<K>, p: Option<K>, fuel: nat): (r: Option<seq<K>>)
    ensures r.Some? ==> |r.value| <= fuel
    ensures r.Some? ==> forall n | n in r.value :: n in links
    ensures r.Some? && |r.value| > 0 ==> p == Some(r.value[0])
    ensures r.Some? && |r.value| == 0 ==> p == None
    decreases fuel
  {
    match p
    case None => Some([])
    case Some(n) =>
      if fuel == 0 || n !in links then None
      else
        match Walk(links, links[n], fuel - 1)
        case None => None
        case Some(rest) => Some([n] + rest)
  }

  /** Once a walk reaches NULL, extra fuel changes nothing. */
  lemma {:induction false} WalkMoreFuel<K>(links: Links<K>, p: Option<K>, fuel: nat, more: nat)
    requires Walk(links, p, fuel).Some?
    requires fuel <= more
    ensures Walk(links, p, more) == Walk(links, p, fuel)
    decreases fuel
  {
    if p.Some? {
      WalkMoreFuel(links, links[p.value], fuel - 1, more - 1);
    }
  }

  /** Fuel only has to cover the nodes a walk visits. */
  lemma {:induction false} WalkEnoughFuel<K>(links: Links<K>, p: Option<K>, fuel: nat, f: nat)
    requires Walk(links, p, fuel).Some?
    requires |Walk(links, p, fuel).value| <= f
    ensures Walk(links, p, f) == Walk(links, p, fuel)
    decreases fuel
  {
    if p.Some? {
      WalkEnoughFuel(links, links[p.value], fuel - 1, f - 1);
    }
  }

  /** The walk from the k-th visited node is the k-th suffix of the walk. */
  lemma {:induction false} WalkSuffix<K>(links: Links<K>, p: Option<K>, fuel: nat, k: nat)
    requires Walk(links, p, fuel).Some?
    requires k < |Walk(links, p, fuel).value|
    ensures k <= fuel
    ensures Walk(links, Some(Walk(links, p, fuel).value[k]), fuel - k) == Some(Walk(links, p, fuel).value[k..])
    decreases k
  {
    var ns := Walk(links, p, fuel).value;
    if k > 0 {
      var rest := Walk(links, links[p.value], fuel - 1).value;
      assert ns == [p.value] + rest;
      WalkSuffix(links, links[p.value], fuel - 1, k - 1);
      assert rest[k - 1..] == ns[k..];
    }
  }

  /** A chain that reaches NULL visits each node at most once. */
  lemma {:induction false} WalkDistinct<K>(links: Links<K>, p: Option<K>, fuel: nat)
    requires Walk(links, p, fuel).Some?
    ensures Distinct(Walk(links, p, fuel).value)
    decreases fuel
  {
    if p.Some? {
      var n := p.value;
      var rest := Walk(links, links[n], fuel - 1).value;
      WalkDistinct(links, links[n], fuel - 1);
      if k :| 0 <= k < |rest| && rest[k] == n {
        WalkSuffix(links, links[n], fuel - 1, k);
        WalkMoreFuel(links, Some(n), fuel - 1 - k, fuel);
        assert false;
      }
    }
  }

  /** A walk only depends on the links of the nodes it visits. */
  lemma {:induction false} WalkFrame<K>(links: Links<K>, links': Links<K>, p: Option<K>, fuel: nat)
    requires Walk(links, p, fuel).Some?
    requires forall n | n in Walk(links, p, fuel).value :: n in links && n in links' && links'[n] == links[n]
    ensures Walk(links', p, fuel) == Walk(links, p, fuel)
    decreases fuel
  {
    if p.Some? {
      WalkFrame(links, links', links[p.value], fuel - 1);
    }
  }

  /** Redirecting the (i-1)-th node of a chain to the successor of the i-th
      node unlinks exactly the i-th node. */
  lemma {:induction false} WalkSplice<K>(links: Links<K>, p: Option<K>, fuel: nat, i: nat)
    requires Walk(links, p, fuel).Some?
    requires 0 < i < |Walk(links, p, fuel).value|
    ensures var ns := Walk(links, p, fuel).value;
      Walk(links[ns[i - 1] := links[ns[i]]], p, fuel) == Some(ns[..i] + ns[i + 1..])
    decreases i
  {
    var ns := Walk(links, p, fuel).value;
    var links' := links[ns[i - 1] := links[ns[i]]];
    var rest := Walk(links, links[p.value], fuel - 1).value;
    assert ns == [ns[0]] + rest;
    WalkDistinct(links, p, fuel);
    if i == 1 {
      // The tail after the removed node is walked unchanged.
      WalkSuffix(links, p, fuel, 1);
      var tail := Walk(links, links[ns[1]], fuel - 2).value;
      assert ns[1..] == [ns[1]] + tail;
      assert tail == ns[2..];
      forall n | n in tail
        ensures n in links && n in links' && links'[n] == links[n]
      {
        assert n != ns[0];
      }
      WalkFrame(links, links', links[ns[1]], fuel - 2);
      WalkMoreFuel(links', links[ns[1]], fuel - 2, fuel - 1);
      assert ns[..1] + ns[2..] == [ns[0]] + tail;
    } else {
      WalkSplice(links, links[p.value], fuel - 1, i - 1);
      assert rest[i - 2] == ns[i - 1] && rest[i - 1] == ns[i];
      assert links'[ns[0]] == links[ns[0]];
      assert [ns[0]] + (rest[..i - 1] + rest[i..]) == ns[..i] + ns[i + 1..];
    }
  }

  /** Two nodes linked to each other (or one node linked to itself) never
      lead to NULL, whatever the fuel. */
  lemma {:induction false} TwoCycleNeverEnds<K>(links: Links<K>, a: K, b: K, fuel: nat)
    requires a in links && b in links
    requires links[a] == Some(b) && links[b] == Some(a)
    ensures Walk(links, Some(a), fuel) == None
    ensures Walk(links, Some(b), fuel) == None
    decreases fuel
  {
    if fuel > 0 {
      TwoCycleNeverEnds(links, a, b, fuel - 1);
    }
  }

  /** Each visited node links to the next visited one, and the last to NULL. */
  lemma WalkNext<K>(links: Links<K>, p: Option<K>, fuel: nat, k: nat)
    requires Walk(links, p, fuel).Some?
    requires k < |Walk(links, p, fuel).value|
    ensures var ns := Walk(links, p, fuel).value;
      ns[k] in links && links[ns[k]] == (if k + 1 < |ns| then Some(ns[k + 1]) else None)
  {
    var ns := Walk(links, p, fuel).value;
    WalkSuffix(links, p, fuel, k);
    var tail := Walk(links, links[ns[k]], fuel - k - 1);
    assert ns[k..] == [ns[k]] + tail.value;
    if k + 1 < |ns| {
      assert tail.value[0] == ns[k + 1];
    }
  }

  /** A sequence without repetitions drawn from a set is no longer than the set. */
  lemma {:induction false} DistinctFits<K>(s: seq<K>, keys: set<K>)
    requires Distinct(s)
    requires forall x | x in s :: x in keys
    ensures |s| <= |keys|
    decreases |s|
  {
    if |s| > 0 {
      assert forall x | x in s[1..] :: x in keys - {s[0]};
      DistinctFits(s[1..], keys - {s[0]});
    }
  }
}

=== FILE: wal.dfy ===
/** The write-ahead log as a pure state machine: version cursors, the
    ordered segment descriptor list and the records, with one transition
    function per entry point. Every transition returns the C return code
    (0 or -1) together with the new state. */
module Wal {
  import opened Base
  import opened WalMeta

  /** Return codes of the log's entry points. */
  const CodeOk: int := 0
  const CodeErr: int := -1

  /** One logged entry: its message type and payload. */
  datatype Record = Record(msgType: byte, body: seq<byte>)

  /** An open log: `pWal->vers`, `pWal->fileInfoSet` and the records the
      segment files hold, keyed by version. */
  datatype Wal = Wal(vers: Versions, fileInfoSet: seq<FileInfo>, records: map<int, Record>)

  /** The return code of an entry point and the log after it. */
  datatype Ret = Ret(code: int, wal: Wal)

  /** A log opened on an empty directory: every cursor unset, no segment. */
  function Fresh(): (r: Wal)
    ensures r.fileInfoSet == [] && r.records == map[]
    ensures forall ver :: !Retains(r.vers, ver)
    ensures r.vers.commitVer == r.vers.snapshotVer == r.vers.verInSnapshotting == NoVer
  {
    Wal(Versions(NoVer, NoVer, NoVer, NoVer, NoVer), [], map[])
  }

  /** `ver` is retained by the log. */
  predicate Retains(v: Versions, ver: int) {
    0 <= v.firstVer <= ver <= v.lastVer
  }

  // ---------------------------------------------------------------------
  // The invariant every reachable state keeps.
  // ---------------------------------------------------------------------

  /** The last descriptor is the open one: it starts at most one past the
      last version and either ends at it or is still empty (`lastVer` unset). */
  predicate OpenSegmentOk(f: FileInfo, lastVer: int) {
    && f.firstVer <= lastVer + 1
    && (f.lastVer == lastVer || (f.lastVer == NoVer && f.firstVer == lastVer + 1))
  }

  /** Descriptors start at non-negative versions, closed descriptors hold a
      (possibly empty) range, and each descriptor starts right after the
      previous one ends. */
  predicate Contiguous(segs: seq<FileInfo>) {
    && (forall i | 0 <= i < |segs| :: segs[i].firstVer >= 0)
    && (forall i | 0 <= i < |segs| - 1 :: segs[i].lastVer >= segs[i].firstVer - 1)
    && (forall i | 0 <= i < |segs| - 1 :: segs[i + 1].firstVer == segs[i].lastVer + 1)
  }

  /** Descriptors rolled before the first write: all empty, starting at 0. */
  predicate Unwritten(segs: seq<FileInfo>) {
    forall i | 0 <= i < |segs| :: segs[i].firstVer == 0 && segs[i].lastVer == NoVer
  }

  predicate Valid(w: Wal) {
    var v := w.vers;
    var segs := w.fileInfoSet;
    && NoVer <= v.snapshotVer <= v.commitVer <= v.lastVer
    && (v.verInSnapshotting == NoVer
        || (0 <= v.verInSnapshotting && v.snapshotVer <= v.verInSnapshotting <= v.commitVer))
    && (if v.firstVer == NoVer then v.lastVer == NoVer && Unwritten(segs)
        else 0 <= v.firstVer <= v.commitVer + 1 && |segs| > 0 && segs[0].firstVer == v.firstVer)
    && Contiguous(segs)
    && (|segs| > 0 ==> OpenSegmentOk(segs[|segs| - 1], v.lastVer))
    && (forall ver | ver in w.records :: Retains(v, ver))
    && (forall ver | 0 <= v.firstVer <= ver <= v.lastVer :: ver in w.records)
  }

  /** Under the invariant, a version is stored exactly when it is retained. */
  lemma ValidRecords(w: Wal, ver: int)
    requires Valid(w)
    ensures ver in w.records <==> Retains(w.vers, ver)
  {
  }

  lemma FreshValid()
    ensures Valid(Fresh())
  {
  }

  /** Descriptor start versions never decrease along the list. */
  lemma {:induction false} FirstVerMonotone(segs: seq<FileInfo>, i: nat, j: nat)
    requires Contiguous(segs)
    requires i <= j < |segs|
    ensures segs[i].firstVer <= segs[j].firstVer
    decreases j - i
  {
    if i < j {
      FirstVerMonotone(segs, i, j - 1);
      assert segs[j].firstVer == segs[j - 1].lastVer + 1;
    }
  }

  /** End versions of closed descriptors never decrease along the list. */
  lemma {:induction false} ClosedLastVerMonotone(segs: seq<FileInfo>, i: nat, j: nat)
    requires Contiguous(segs)
    requires i <= j < |segs| - 1
    ensures segs[i].lastVer <= segs[j].lastVer
    decreases j - i
  {
    if i < j {
      ClosedLastVerMonotone(segs, i, j - 1);
      assert segs[j].firstVer == segs[j - 1].lastVer + 1;
    }
  }

  // ---------------------------------------------------------------------
  // Descriptor list helpers.
  // ---------------------------------------------------------------------

  function Last(segs: seq<FileInfo>): FileInfo
    requires |segs| > 0
  {
    segs[|segs| - 1]
  }

  function SetLast(segs: seq<FileInfo>, f: FileInfo): (r: seq<FileInfo>)
    requires |segs| > 0
    ensures |r| == |segs| && r[|r| - 1] == f
    ensures forall i | 0 <= i < |segs| - 1 :: r[i] == segs[i]
  {
    segs[..|segs| - 1] + [f]
  }

  // ---------------------------------------------------------------------
  // walRollFileInfo
  // ---------------------------------------------------------------------

  /** `walRollFileInfo`: stamps the open descriptor (if any) with the last
      version and the close time `now`, then appends a new, empty, open
      descriptor starting right after the last version. */
  function RollFileInfo(w: Wal, now: int): (r: Ret)
    ensures r.code == CodeOk
    ensures r.wal.vers == w.vers && r.wal.records == w.records
    ensures |r.wal.fileInfoSet| == |w.fileInfoSet| + 1
    ensures Last(r.wal.fileInfoSet) == FileInfo(w.vers.lastVer + 1, NoVer, NoVer, 0)
    ensures forall i | 0 <= i < |w.fileInfoSet| - 1 :: r.wal.fileInfoSet[i] == w.fileInfoSet[i]
    ensures |w.fileInfoSet| > 0 ==>
      r.wal.fileInfoSet[|w.fileInfoSet| - 1]
        == Last(w.fileInfoSet).(lastVer := w.vers.lastVer, closeTs := now)
  {
    var segs := w.fileInfoSet;
    var closed := if |segs| == 0 then segs
                  else SetLast(segs, Last(segs).(lastVer := w.vers.lastVer, closeTs := now));
    Ret(CodeOk, w.(fileInfoSet := closed + [FileInfo(w.vers.lastVer + 1, NoVer, NoVer, 0)]))
  }

  lemma RollFileInfoPreservesValid(w: Wal, now: int)
    requires Valid(w)
    ensures Valid(RollFileInfo(w, now).wal)
  {
    var segs := w.fileInfoSet;
    var segs' := RollFileInfo(w, now).wal.fileInfoSet;
    if |segs| > 0 {
      assert segs'[|segs| - 1].lastVer == w.vers.lastVer;
      assert segs'[|segs|].firstVer == segs'[|segs| - 1].lastVer + 1;
    }
  }

  // ---------------------------------------------------------------------
  // walWrite
  // ---------------------------------------------------------------------

  /** The log with `firstVer` set by its first write, rolling the first
      segment descriptor when none exists yet. */
  function StartLog(w: Wal, ver: int, now: int): Wal {
    var w1 := w.(vers := w.vers.(firstVer := ver));
    if |w.fileInfoSet| == 0 then RollFileInfo(w1, now).wal else w1
  }

  /** Stores `rec` at `ver`, which becomes the last version and the end of
      the open descriptor; the descriptor grows by the payload length. */
  function Append(w: Wal, ver: int, rec: Record): Wal {
    var segs := w.fileInfoSet;
    var segs' := if |segs| == 0 then segs
                 else SetLast(segs, Last(segs).(lastVer := ver, fileSize := Last(segs).fileSize + |rec.body|));
    Wal(w.vers.(lastVer := ver), segs', w.records[ver := rec])
  }

  /** The first write of a log sets `firstVer` and leaves a valid, not yet
      written log with an open descriptor. */
  lemma StartLogValid(w: Wal, now: int)
    requires Valid(w) && w.vers.firstVer == NoVer
    ensures var w1 := StartLog(w, 0, now);
      Valid(w1) && w1.vers.firstVer == 0 && |w1.fileInfoSet| > 0
  {
    var w1 := StartLog(w, 0, now);
    if |w.fileInfoSet| == 0 {
      assert w1.fileInfoSet == [FileInfo(0, NoVer, NoVer, 0)];
    }
  }

  lemma AppendPreservesValid(w: Wal, ver: int, rec: Record)
    requires Valid(w) && w.vers.firstVer != NoVer
    requires ver == w.vers.lastVer + 1
    ensures Valid(Append(w, ver, rec))
  {
    var w' := Append(w, ver, rec);
    var segs := w.fileInfoSet;
    var segs' := w'.fileInfoSet;
    assert |segs'| == |segs|;
    assert forall i | 0 <= i < |segs| - 1 :: segs'[i] == segs[i];
    assert segs'[|segs| - 1].firstVer == segs[|segs| - 1].firstVer;
    assert Contiguous(segs');
    assert forall u | u in w'.records :: u == ver || u in w.records;
  }

  /** `walWrite`: accepted exactly when `ver` is the next version after
      `lastVer`; then the record is stored at `ver`, `lastVer` and the open
      descriptor's end move to `ver`, and the descriptor grows by the payload
      length. The first write of a log without descriptors opens one. A
      rejected write changes nothing. */
  function Write(w: Wal, ver: int, msgType: byte, body: seq<byte>, now: int): (r: Ret)
    ensures r.code == CodeOk <==> ver == w.vers.lastVer + 1
    ensures r.code != CodeOk ==> r.wal == w
    ensures r.code == CodeOk ==> r.wal.vers.lastVer == ver
    ensures r.code == CodeOk ==> r.wal.records == w.records[ver := Record(msgType, body)]
    ensures r.code == CodeOk ==>
      && r.wal.vers.commitVer == w.vers.commitVer
      && r.wal.vers.snapshotVer == w.vers.snapshotVer
      && r.wal.vers.verInSnapshotting == w.vers.verInSnapshotting
    ensures r.code == CodeOk && w.vers.firstVer != NoVer ==> r.wal.vers.firstVer == w.vers.firstVer
    ensures r.code == CodeOk && w.vers.firstVer == NoVer ==> r.wal.vers.firstVer == ver
    ensures r.code == CodeOk && |w.fileInfoSet| > 0 ==>
      && |r.wal.fileInfoSet| == |w.fileInfoSet|
      && Last(r.wal.fileInfoSet)
           == Last(w.fileInfoSet).(lastVer := ver, fileSize := Last(w.fileInfoSet).fileSize + |body|)
      && (forall i | 0 <= i < |w.fileInfoSet| - 1 :: r.wal.fileInfoSet[i] == w.fileInfoSet[i])
    ensures r.code == CodeOk && |w.fileInfoSet| == 0 && w.vers.firstVer == NoVer ==>
      r.wal.fileInfoSet == [FileInfo(ver, ver, NoVer, |body|)]
  {
    if ver != w.vers.lastVer + 1 then Ret(CodeErr, w)
    else
      var w1 := if w.vers.firstVer == NoVer then StartLog(w, ver, now) else w;
      Ret(CodeOk, Append(w1, ver, Record(msgType, body)))
  }

  lemma WritePreservesValid(w: Wal, ver: int, msgType: byte, body: seq<byte>, now: int)
    requires Valid(w)
    ensures Valid(Write(w, ver, msgType, body, now).wal)
  {
    if ver == w.vers.lastVer + 1 {
      if w.vers.firstVer == NoVer {
        StartLogValid(w, now);
        AppendPreservesValid(StartLog(w, ver, now), ver, Record(msgType, body));
      } else {
        AppendPreservesValid(w, ver, Record(msgType, body));
      }
    }
  }

  // ---------------------------------------------------------------------
  // walCommit
  // ---------------------------------------------------------------------

  /** `walCommit`: moves `commitVer` forward to `ver`. Which requests are
      refused is a modelling choice: here a `ver` past `lastVer` or not
      beyond the current `commitVer`. */
  function Commit(w: Wal, ver: int): (r: Ret)
    ensures r.code == CodeOk <==> w.vers.commitVer < ver <= w.vers.lastVer
    ensures r.code == CodeOk ==> r.wal.vers.commitVer == ver
    ensures r.wal.fileInfoSet == w.fileInfoSet && r.wal.records == w.records
    ensures r.wal.vers.(commitVer := w.vers.commitVer) == w.vers
    ensures r.code != CodeOk ==> r.wal == w
  {
    if w.vers.commitVer < ver <= w.vers.lastVer then Ret(CodeOk, w.(vers := w.vers.(commitVer := ver)))
    else Ret(CodeErr, w)
  }

  lemma CommitPreservesValid(w: Wal, ver: int)
    requires Valid(w)
    ensures Valid(Commit(w, ver).wal)
  {
  }

  // ---------------------------------------------------------------------
  // walRollback
  // ---------------------------------------------------------------------

  /** Number of leading descriptors that start at or before `ver`. */
  function KeptCount(segs: seq<FileInfo>, ver: int): (k: nat)
    ensures k <= |segs|
    ensures forall i | 0 <= i < k :: segs[i].firstVer <= ver
    ensures k < |segs| ==> segs[k].firstVer > ver
  {
    if |segs| == 0 || segs[0].firstVer > ver then 0 else 1 + KeptCount(segs[1..], ver)
  }

  /** Total payload bytes of the records with versions in [lo, hi]. */
  function PayloadBytes(records: map<int, Record>, lo: int, hi: int): nat
    decreases hi - lo + 1
  {
    if hi < lo then 0
    else PayloadBytes(records, lo, hi - 1) + (if hi in records then |records[hi].body| else 0)
  }

  /** The records strictly below `ver`. */
  function RecordsBelow(records: map<int, Record>, ver: int): (r: map<int, Record>)
    ensures forall u :: u in r <==> u in records && u < ver
    ensures forall u | u in r :: r[u] == records[u]
  {
    map u | u in records && u < ver :: records[u]
  }

  /** The descriptor list after rolling back to `ver`: descriptors starting
      after `ver` are dropped, and the one now last is reopened, ends at
      `ver - 1` and holds the payload bytes of what it still contains. */
  function RollbackSegments(segs: seq<FileInfo>, records: map<int, Record>, ver: int): seq<FileInfo> {
    var k := KeptCount(segs, ver);
    if k == 0 then []
    else
      var f := segs[k - 1];
      segs[..k - 1] + [f.(lastVer := ver - 1, closeTs := NoVer, fileSize := PayloadBytes(records, f.firstVer, ver - 1))]
  }

  /** `walRollback`: sets `lastVer` to `ver - 1`, forgetting every record
      from `ver` on. Which requests are refused is a modelling choice: here
      a `ver` above `lastVer` or at or below `commitVer`, and any request
      made while a snapshot is in progress. */
  function Rollback(w: Wal, ver: int): (r: Ret)
    ensures r.code == CodeOk <==>
      w.vers.verInSnapshotting == NoVer && w.vers.commitVer < ver <= w.vers.lastVer
    ensures r.code != CodeOk ==> r.wal == w
    ensures r.code == CodeOk ==> r.wal.vers == w.vers.(lastVer := ver - 1)
    ensures r.code == CodeOk ==> forall u :: u in r.wal.records <==> u in w.records && u < ver
    ensures r.code == CodeOk ==> forall u | u in r.wal.records :: r.wal.records[u] == w.records[u]
  {
    if !(w.vers.verInSnapshotting == NoVer && w.vers.commitVer < ver <= w.vers.lastVer) then Ret(CodeErr, w)
    else
      var records := RecordsBelow(w.records, ver);
      Ret(CodeOk, Wal(w.vers.(lastVer := ver - 1), RollbackSegments(w.fileInfoSet, records, ver), records))
  }

  lemma RollbackPreservesValid(w: Wal, ver: int)
    requires Valid(w)
    ensures Valid(Rollback(w, ver).wal)
  {
    if Rollback(w, ver).code == CodeOk {
      var segs := w.fileInfoSet;
      var k := KeptCount(segs, ver);
      assert k >= 1;
      var segs' := RollbackSegments(segs, RecordsBelow(w.records, ver), ver);
      assert |segs'| == k;
      assert forall i | 0 <= i < k - 1 :: segs'[i] == segs[i];
      assert segs'[k - 1].firstVer == segs[k - 1].firstVer;
      assert Contiguous(segs');
    }
  }

  /** Counting kept descriptors only looks at their start versions. */
  lemma {:induction false} KeptCountSameStarts(s: seq<FileInfo>, t: seq<FileInfo>, ver: int)
    requires |s| == |t|
    requires forall i | 0 <= i < |s| :: s[i].firstVer == t[i].firstVer
    ensures KeptCount(s, ver) == KeptCount(t, ver)
    decreases |s|
  {
    if |s| > 0 && s[0].firstVer <= ver {
      KeptCountSameStarts(s[1..], t[1..], ver);
    }
  }

  /** A prefix that covers every kept descriptor keeps the same number. */
  lemma {:induction false} KeptCountPrefix(s: seq<FileInfo>, n: nat, ver: int)
    requires KeptCount(s, ver) <= n <= |s|
    ensures KeptCount(s[..n], ver) == KeptCount(s, ver)
    decreases n
  {
    if |s| > 0 && s[0].firstVer <= ver {
      assert s[..n][1..] == s[1..][..n - 1];
      KeptCountPrefix(s[1..], n - 1, ver);
    }
  }

  /** A lower bound keeps no more descriptors. */
  lemma {:induction false} KeptCountMonotone(s: seq<FileInfo>, lo: int, hi: int)
    requires lo <= hi
    ensures KeptCount(s, lo) <= KeptCount(s, hi)
    decreases |s|
  {
    if |s| > 0 && s[0].firstVer <= lo {
      KeptCountMonotone(s[1..], lo, hi);
    }
  }

  /** Cutting the descriptor list at `a` keeps every descriptor a cut at a
      smaller `b` keeps, with the same start versions. */
  lemma RollbackSegmentsKeep(s: seq<FileInfo>, ra: map<int, Record>, a: int, b: int)
    requires b < a && KeptCount(s, b) >= 1
    ensures var s1 := RollbackSegments(s, ra, a);
      var kb := KeptCount(s, b);
      && KeptCount(s1, b) == kb
      && s1[..kb - 1] == s[..kb - 1]
      && s1[kb - 1].firstVer == s[kb - 1].firstVer
  {
    var s1 := RollbackSegments(s, ra, a);
    var ka := KeptCount(s, a);
    var kb := KeptCount(s, b);
    KeptCountMonotone(s, b, a);
    assert s1 == s[..ka - 1] + [s[ka - 1].(lastVer := a - 1, closeTs := NoVer, fileSize := PayloadBytes(ra, s[ka - 1].firstVer, a - 1))];
    assert |s1| == ka;
    assert forall i | 0 <= i < ka :: s1[i].firstVer == s[..ka][i].firstVer;
    KeptCountSameStarts(s1, s[..ka], b);
    KeptCountPrefix(s, ka, b);
  }

  /** Cutting the descriptor list at `a` and then at a smaller `b` is
      cutting it at `b`. */
  lemma RollbackSegmentsTwice(s: seq<FileInfo>, ra: map<int, Record>, rb: map<int, Record>, a: int, b: int)
    requires b < a && KeptCount(s, b) >= 1
    ensures RollbackSegments(RollbackSegments(s, ra, a), rb, b) == RollbackSegments(s, rb, b)
  {
    var s1 := RollbackSegments(s, ra, a);
    var kb := KeptCount(s, b);
    RollbackSegmentsKeep(s, ra, a, b);
    var f := s[kb - 1];
    var f1 := s1[kb - 1];
    var size := PayloadBytes(rb, f.firstVer, b - 1);
    assert f1.(lastVer := b - 1, closeTs := NoVer, fileSize := size) == f.(lastVer := b - 1, closeTs := NoVer, fileSize := size);
  }

  /** Rolling back to `a` and then to a smaller `b` is the same as rolling
      back to `b` directly: same cursors, descriptors and records. */
  lemma RollbackTwice(w: Wal, a: int, b: int)
    requires Valid(w)
    requires w.vers.verInSnapshotting == NoVer
    requires w.vers.commitVer < b < a <= w.vers.lastVer
    ensures Rollback(w, a).code == CodeOk
    ensures Rollback(Rollback(w, a).wal, b).code == CodeOk
    ensures Rollback(Rollback(w, a).wal, b) == Rollback(w, b)
  {
    var ra := RecordsBelow(w.records, a);
    var rb := RecordsBelow(w.records, b);
    assert RecordsBelow(ra, b) == rb;
    var w1 := Rollback(w, a).wal;
    assert w1 == Wal(w.vers.(lastVer := a - 1), RollbackSegments(w.fileInfoSet, ra, a), ra);
    assert KeptCount(w.fileInfoSet, b) >= 1;
    RollbackSegmentsTwice(w.fileInfoSet, ra, rb, a, b);
  }

  // ---------------------------------------------------------------------
  // walBeginTakeSnapshot / walEndTakeSnapshot
  // ---------------------------------------------------------------------

  /** `walBeginTakeSnapshot`: records `ver` as the snapshot in progress.
      Refusing a second snapshot, a negative target, one below the last
      snapshot or one beyond `commitVer` is a modelling choice. */
  function BeginTakeSnapshot(w: Wal, ver: int): (r: Ret)
    ensures r.code == CodeOk <==>
      w.vers.verInSnapshotting == NoVer && 0 <= ver && w.vers.snapshotVer <= ver <= w.vers.commitVer
    ensures r.code == CodeOk ==> r.wal.vers.verInSnapshotting == ver
    ensures r.code != CodeOk ==> r.wal == w
    ensures r.wal.fileInfoSet == w.fileInfoSet && r.wal.records == w.records
    ensures r.wal.vers.(verInSnapshotting := w.vers.verInSnapshotting) == w.vers
  {
    if w.vers.verInSnapshotting == NoVer && 0 <= ver && w.vers.snapshotVer <= ver <= w.vers.commitVer then
      Ret(CodeOk, w.(vers := w.vers.(verInSnapshotting := ver)))
    else Ret(CodeErr, w)
  }

  lemma BeginTakeSnapshotPreservesValid(w: Wal, ver: int)
    requires Valid(w)
    ensures Valid(BeginTakeSnapshot(w, ver).wal)
  {
  }

  /** Number of leading closed descriptors that end before `snap`; the open
      (last) descriptor is never counted. */
  function CoveredCount(segs: seq<FileInfo>, snap: int): (k: nat)
    ensures |segs| == 0 ==> k == 0
    ensures |segs| > 0 ==> k < |segs|
    ensures forall i | 0 <= i < k :: segs[i].lastVer < snap
    ensures k < |segs| - 1 ==> segs[k].lastVer >= snap
  {
    if |segs| <= 1 || segs[0].lastVer >= snap then 0 else 1 + CoveredCount(segs[1..], snap)
  }

  /** `walEndTakeSnapshot`: completes the snapshot in progress, making it
      `snapshotVer`, and drops the closed descriptors (and their records)
      that end before it; `firstVer` moves to the first descriptor kept.
      Fails when no snapshot is in progress. */
  function EndTakeSnapshot(w: Wal): (r: Ret)
    ensures r.code == CodeOk <==> w.vers.verInSnapshotting != NoVer
    ensures r.code != CodeOk ==> r.wal == w
    ensures r.code == CodeOk ==>
      && r.wal.vers.snapshotVer == w.vers.verInSnapshotting
      && r.wal.vers.verInSnapshotting == NoVer
      && r.wal.vers.lastVer == w.vers.lastVer
      && r.wal.vers.commitVer == w.vers.commitVer
    ensures r.code == CodeOk ==>
      && |r.wal.fileInfoSet| <= |w.fileInfoSet|
      && (|w.fileInfoSet| > 0 ==> |r.wal.fileInfoSet| > 0)
      && r.wal.fileInfoSet == w.fileInfoSet[|w.fileInfoSet| - |r.wal.fileInfoSet|..]
      && (forall i | 0 <= i < |w.fileInfoSet| - |r.wal.fileInfoSet| ::
            w.fileInfoSet[i].lastVer < w.vers.verInSnapshotting)
    ensures r.code == CodeOk ==>
      forall u | u in r.wal.records :: u in w.records && r.wal.records[u] == w.records[u]
    ensures r.code == CodeOk && |r.wal.fileInfoSet| < |w.fileInfoSet| ==>
      r.wal.vers.firstVer == r.wal.fileInfoSet[0].firstVer
    ensures r.code == CodeOk && |r.wal.fileInfoSet| == |w.fileInfoSet| ==>
      r.wal.vers.firstVer == w.vers.firstVer
    ensures r.code == CodeOk ==>
      forall u :: u in r.wal.records <==> u in w.records && u >= r.wal.vers.firstVer
  {
    var snap := w.vers.verInSnapshotting;
    if snap == NoVer then Ret(CodeErr, w)
    else
      var k := CoveredCount(w.fileInfoSet, snap);
      var segs := w.fileInfoSet[k..];
      var first := if k == 0 then w.vers.firstVer else segs[0].firstVer;
      var records := map u | u in w.records && u >= first :: w.records[u];
      Ret(CodeOk, Wal(w.vers.(firstVer := first, snapshotVer := snap, verInSnapshotting := NoVer), segs, records))
  }

  /** The descriptors a completed snapshot keeps still form a valid list:
      at least the open one survives, they are contiguous, and the first
      kept one starts between `firstVer` and the snapshot version. */
  lemma CoveredSuffixOk(w: Wal)
    requires Valid(w) && w.vers.verInSnapshotting != NoVer
    ensures var segs := w.fileInfoSet;
      var k := CoveredCount(segs, w.vers.verInSnapshotting);
      && 0 <= k < |segs|
      && Contiguous(segs[k..])
      && (k > 0 ==> w.vers.firstVer <= segs[k].firstVer <= w.vers.verInSnapshotting)
  {
    var segs := w.fileInfoSet;
    var snap := w.vers.verInSnapshotting;
    var k := CoveredCount(segs, snap);
    assert w.vers.firstVer != NoVer && |segs| > 0;
    if k > 0 {
      assert segs[k].firstVer == segs[k - 1].lastVer + 1;
      FirstVerMonotone(segs, 0, k);
    }
    assert forall i | 0 <= i < |segs[k..]| :: segs[k..][i] == segs[k + i];
  }

  /** Dropping the records below a new, larger `firstVer` leaves exactly
      the versions from it to `lastVer`. */
  lemma RestrictedRecords(w: Wal, first: int)
    requires Valid(w) && 0 <= w.vers.firstVer <= first
    ensures var records := map u | u in w.records && u >= first :: w.records[u];
      forall ver :: ver in records <==> first <= ver <= w.vers.lastVer
  {
    forall ver
      ensures ver in w.records <==> Retains(w.vers, ver)
    {
      ValidRecords(w, ver);
    }
  }

  lemma EndTakeSnapshotPreservesValid(w: Wal)
    requires Valid(w)
    ensures Valid(EndTakeSnapshot(w).wal)
  {
    var snap := w.vers.verInSnapshotting;
    if snap != NoVer {
      var segs := w.fileInfoSet;
      var k := CoveredCount(segs, snap);
      CoveredSuffixOk(w);
      var segs' := segs[k..];
      var first := if k == 0 then w.vers.firstVer else segs'[0].firstVer;
      var v' := w.vers.(firstVer := first, snapshotVer := snap, verInSnapshotting := NoVer);
      var records := map u | u in w.records && u >= first :: w.records[u];
      assert EndTakeSnapshot(w).wal == Wal(v', segs', records);
      assert segs'[|segs'| - 1] == segs[|segs| - 1];
      assert 0 <= first <= v'.commitVer + 1 && segs'[0].firstVer == first;
      RestrictedRecords(w, first);
    }
  }

  /** Under the invariant the descriptors a completed snapshot drops are
      exactly the closed ones that end before the snapshot version. */
  lemma EndTakeSnapshotDropsExactlyCovered(w: Wal, i: nat)
    requires Valid(w)
    requires w.vers.verInSnapshotting != NoVer
    requires i < |w.fileInfoSet| - 1
    ensures var dropped := |w.fileInfoSet| - |EndTakeSnapshot(w).wal.fileInfoSet|;
      i < dropped <==> w.fileInfoSet[i].lastVer < w.vers.verInSnapshotting
    ensures |w.fileInfoSet| - |EndTakeSnapshot(w).wal.fileInfoSet| < |w.fileInfoSet|
  {
    var segs := w.fileInfoSet;
    var snap := w.vers.verInSnapshotting;
    var k := CoveredCount(segs, snap);
    if k <= i {
      ClosedLastVerMonotone(segs, k, i);
    }
  }

  /** While a snapshot of `v` is in progress no write at or below `v` is
      accepted, and rollback is refused altogether: the region the snapshot
      covers cannot change under it. */
  lemma SnapshotBoundaryHolds(w: Wal, v: int, ver: int, msgType: byte, body: seq<byte>, now: int)
    requires Valid(w)
    requires BeginTakeSnapshot(w, v).code == CodeOk
    requires ver <= v
    ensures var w1 := BeginTakeSnapshot(w, v).wal;
      && Write(w1, ver, msgType, body, now) == Ret(CodeErr, w1)
      && Rollback(w1, ver) == Ret(CodeErr, w1)
      && (forall rv :: Rollback(w1, rv) == Ret(CodeErr, w1))
  {
  }

  /** Once a snapshot has ended, a write of a version it covers is still
      refused, and nothing changes. */
  lemma StaleWriteAfterSnapshotRefused(w: Wal, ver: int, msgType: byte, body: seq<byte>, now: int)
    requires Valid(w)
    requires w.vers.verInSnapshotting != NoVer && ver <= w.vers.verInSnapshotting
    ensures var w2 := EndTakeSnapshot(w).wal;
      Write(w2, ver, msgType, body, now) == Ret(CodeErr, w2)
  {
  }

  // ---------------------------------------------------------------------
  // walMetaSerialize, walWriteMeta / walClose, walOpen
  // ---------------------------------------------------------------------

  /** The persisted part of the state. */
  function ToMeta(w: Wal): Meta {
    Meta(w.vers.firstVer, w.vers.snapshotVer, w.vers.commitVer, w.vers.lastVer, w.fileInfoSet)
  }

  /** `walMetaSerialize`: the cursors and the segment table, in a form the
      metadata reader turns back into exactly the same cursors and table. */
  function Serialize(w: Wal): (s: seq<int>)
    ensures |s| == HeaderFields + FileFields * |w.fileInfoSet|
    ensures Decode(s) == Some(ToMeta(w))
  {
    DecodeEncode(ToMeta(w));
    Encode(ToMeta(w))
  }

  /** What survives a close: the metadata file, if one was written, and the
      records the segment files hold. */
  datatype Disk = Disk(metaFile: Option<seq<int>>, log: map<int, Record>)

  /** `walWriteMeta` (also done by `walClose`): stores the serialised
      metadata next to the segment files. */
  function WriteMeta(w: Wal): (d: Disk)
    ensures d.metaFile.Some? && Decode(d.metaFile.value) == Some(ToMeta(w))
    ensures d.log == w.records
  {
    DecodeEncode(ToMeta(w));
    Disk(Some(Serialize(w)), w.records)
  }

  datatype OpenError = CorruptMeta

  /** The state rebuilt from metadata and segment contents: the cursors and
      descriptors come from the metadata, the records from the segment files
      within the retained range; no snapshot is in progress. */
  function FromMeta(m: Meta, log: map<int, Record>): Wal {
    Wal(Versions(m.firstVer, m.lastVer, m.commitVer, m.snapshotVer, NoVer), m.files,
        map u | u in log && 0 <= m.firstVer <= u <= m.lastVer :: log[u])
  }

  /** `walOpen`: without a metadata file the log starts empty; metadata that
      does not parse, or describes an inconsistent state, is refused. */
  function Open(d: Disk): (r: Result<Wal, OpenError>)
    ensures d.metaFile.None? ==> r == Success(Fresh())
    ensures r.Success? ==> Valid(r.value) && r.value.vers.verInSnapshotting == NoVer
    ensures d.metaFile.Some? && r.Success? ==> Serialize(r.value) == d.metaFile.value
  {
    match d.metaFile
    case None => FreshValid(); Success(Fresh())
    case Some(text) =>
      match Decode(text)
      case None => Failure(CorruptMeta)
      case Some(m) =>
        var w := FromMeta(m, d.log);
        if Valid(w) then Success(w) else Failure(CorruptMeta)
  }

  /** Closing and reopening a log restores it exactly, except that a
      snapshot in progress is forgotten; the serialised metadata is the same
      before and after. */
  lemma ReopenRoundTrip(w: Wal)
    requires Valid(w)
    ensures Open(WriteMeta(w)) == Success(w.(vers := w.vers.(verInSnapshotting := NoVer)))
    ensures Serialize(Open(WriteMeta(w)).value) == Serialize(w)
  {
    var w' := w.(vers := w.vers.(verInSnapshotting := NoVer));
    var d := WriteMeta(w);
    var rebuilt := FromMeta(ToMeta(w), d.log);
    forall u
      ensures u in rebuilt.records <==> u in w.records
    {
      ValidRecords(w, u);
    }
    assert rebuilt.records == w.records;
    assert rebuilt == w';
    assert Valid(w');
  }
}

=== FILE: wal_meta.dfy ===
/** The persistent part of a write-ahead log: its version cursors, its
    segment descriptors, and the side-car metadata encoding of both. */
module WalMeta {
  import opened Base

  /** The "no version" / "not set" sentinel of every cursor and descriptor field. */
  const NoVer: int := -1

  /** The five version cursors of an open log (`pWal->vers`). */
  datatype Versions = Versions(
    firstVer: int,           // smallest retained version
    lastVer: int,            // most recently appended version
    commitVer: int,          // highest version acknowledged by the caller
    snapshotVer: int,        // version covered by the last completed snapshot
    verInSnapshotting: int)  // target of the snapshot in progress, or NoVer

  /** A segment descriptor (`WalFileInfo`): the version range a segment file
      holds, when it was closed and how many bytes it holds. */
  datatype FileInfo = FileInfo(firstVer: int, lastVer: int, closeTs: int, fileSize: int)

  /** What the metadata file records: four of the cursors and the ordered
      descriptor list. The in-progress snapshot target is not persisted. */
  datatype Meta = Meta(firstVer: int, snapshotVer: int, commitVer: int, lastVer: int, files: seq<FileInfo>)

  /** Number of integers per encoded descriptor. */
  const FileFields: nat := 4

  /** Number of integers in the header: four cursors and the descriptor count. */
  const HeaderFields: nat := 5

  function EncodeFile(f: FileInfo): (s: seq<int>)
    ensures |s| == FileFields
  {
    [f.firstVer, f.lastVer, f.closeTs, f.fileSize]
  }

  /** The descriptors, one fixed-size group per descriptor, in order. */
  function EncodeFiles(files: seq<FileInfo>): (s: seq<int>)
    ensures |s| == FileFields * |files|
  {
    if |files| == 0 then [] else EncodeFile(files[0]) + EncodeFiles(files[1..])
  }

  /** Reads back a descriptor list; rejects input whose length is not a whole
      number of descriptors. Only canonical encodings are accepted. */
  function DecodeFiles(s: seq<int>): (r: Option<seq<FileInfo>>)
    ensures r.Some? ==> EncodeFiles(r.value) == s
    ensures |s| % FileFields == 0 ==> r.Some?
    decreases |s|
  {
    if |s| == 0 then Some([])
    else if |s| < FileFields then None
    else
      match DecodeFiles(s[FileFields..])
      case None => None
      case Some(rest) =>
        var f := FileInfo(s[0], s[1], s[2], s[3]);
        assert EncodeFile(f) + s[FileFields..] == s;
        Some([f] + rest)
  }

  /** The metadata text `walMetaSerialize` produces, abstracted to a sequence
      of integers: a deterministic function of the persisted state. */
  function Encode(m: Meta): (s: seq<int>)
    ensures |s| == HeaderFields + FileFields * |m.files|
  {
    [m.firstVer, m.snapshotVer, m.commitVer, m.lastVer, |m.files|] + EncodeFiles(m.files)
  }

  /** Parses metadata; `None` when the length fields do not match (the
      corrupt-metadata case). Whatever it accepts it re-encodes exactly. */
  function Decode(s: seq<int>): (r: Option<Meta>)
    ensures r.Some? ==> Encode(r.value) == s
  {
    if |s| < HeaderFields || s[4] < 0 || |s| != HeaderFields + FileFields * s[4] then None
    else
      match DecodeFiles(s[HeaderFields..])
      case None => None
      case Some(files) =>
        assert |files| == s[4];
        assert s == s[..HeaderFields] + s[HeaderFields..];
        Some(Meta(s[0], s[1], s[2], s[3], files))
  }

  /** Decoding the encoding of a descriptor list gives the list back. */
  lemma {:induction false} DecodeEncodeFiles(files: seq<FileInfo>)
    ensures DecodeFiles(EncodeFiles(files)) == Some(files)
    decreases |files|
  {
    if |files| > 0 {
      var s := EncodeFiles(files);
      assert s[FileFields..] == EncodeFiles(files[1..]);
      DecodeEncodeFiles(files[1..]);
      assert [files[0]] + files[1..] == files;
    }
  }

  /** Decoding the encoding of metadata gives the metadata back. */
  lemma DecodeEncode(m: Meta)
    ensures Decode(Encode(m)) == Some(m)
  {
    var s := Encode(m);
    assert s[HeaderFields..] == EncodeFiles(m.files);
    DecodeEncodeFiles(m.files);
  }

  /** Two states serialise to the same text exactly when their persisted
      parts are equal. */
  lemma EncodeInjective(m1: Meta, m2: Meta)
    ensures Encode(m1) == Encode(m2) <==> m1 == m2
  {
    if Encode(m1) == Encode(m2) {
      DecodeEncode(m1);
      DecodeEncode(m2);
    }
  }
}

=== FILE: wal_read.dfy ===
/** Read handles: independent cursors that fetch one record by version. */
module WalRead {
  import opened Base
  import opened WalMeta
  import opened Wal

  /** The decoded record a handle holds after a read (`pRead->pHead->head`). */
  datatype Head = Head(version: int, msgType: byte, len: nat, body: seq<byte>)

  /** A read handle: its position and the last record it decoded. The log it
      reads is passed to each read. */
  datatype ReadHandle = ReadHandle(curVersion: int, head: Option<Head>)

  /** The return code of a read and the handle after it. */
  datatype ReadRet = ReadRet(code: int, handle: ReadHandle)

  /** `walOpenReadHandle`: a handle that has read nothing yet. */
  function OpenReadHandle(): (h: ReadHandle)
    ensures h.head.None?
  {
    ReadHandle(NoVer, None)
  }

  /** `walReadWithHandle`: decodes the record stored at `ver` into the
      handle and moves the handle just past it; fails, leaving the handle
      as it was, when the log holds no record at `ver`. */
  function ReadWithHandle(h: ReadHandle, w: Wal, ver: int): (r: ReadRet)
    ensures r.code == CodeOk <==> ver in w.records
    ensures r.code != CodeOk ==> r.handle == h
    ensures r.code == CodeOk ==>
      && r.handle.curVersion == ver + 1
      && r.handle.head.Some?
      && r.handle.head.value.version == ver
      && r.handle.head.value.len == |r.handle.head.value.body|
      && Record(r.handle.head.value.msgType, r.handle.head.value.body) == w.records[ver]
  {
    if ver in w.records then
      var rec := w.records[ver];
      ReadRet(CodeOk, ReadHandle(ver + 1, Some(Head(ver, rec.msgType, |rec.body|, rec.body))))
    else ReadRet(CodeErr, h)
  }

  /** On a consistent log a read succeeds exactly for the retained versions,
      from `firstVer` to `lastVer`. */
  lemma ReadSucceedsOnRetained(h: ReadHandle, w: Wal, ver: int)
    requires Valid(w)
    ensures ReadWithHandle(h, w, ver).code == CodeOk <==> Retains(w.vers, ver)
  {
    ValidRecords(w, ver);
  }
}

=== FILE: wal_scenarios.dfy ===
/** The sequences of calls the log's unit tests make, and what they assert,
    stated over the model. */
module WalScenarios {
  import opened Base
  import opened WalMeta
  import opened Wal
  import opened WalRead

  /** `walRollFileInfo` called `n` times in a row, stopping at a failure. */
  function RollTimes(w: Wal, n: nat, now: int): Ret
    decreases n
  {
    if n == 0 then Ret(CodeOk, w)
    else
      var r := RollFileInfo(w, now);
      if r.code != CodeOk then r else RollTimes(r.wal, n - 1, now)
  }

  /** Every roll succeeds, keeps the log consistent, leaves the cursors
      alone and adds one descriptor. */
  lemma {:induction false} RollTimesSucceeds(w: Wal, n: nat, now: int)
    requires Valid(w)
    ensures var r := RollTimes(w, n, now);
      && r.code == CodeOk
      && Valid(r.wal)
      && r.wal.vers == w.vers
      && |r.wal.fileInfoSet| == |w.fileInfoSet| + n
    decreases n
  {
    if n > 0 {
      RollFileInfoPreservesValid(w, now);
      RollTimesSucceeds(RollFileInfo(w, now).wal, n - 1, now);
    }
  }

  /** Rolling a fresh log creates exactly one open, empty descriptor
      starting at version 0 (test `createNew`). */
  lemma CreateNew(now: int)
    ensures var r := RollFileInfo(Fresh(), now);
      && r.code == CodeOk
      && r.wal.fileInfoSet == [FileInfo(0, NoVer, NoVer, 0)]
  {
  }

  /** Six rolls of a fresh log each succeed, and the metadata written
      afterwards reads back into a log with the same serialisation (tests
      `serialize` and `removeOldMeta`). */
  lemma SerializeAfterRolls(now: int)
    ensures var r := RollTimes(Fresh(), 6, now);
      && r.code == CodeOk
      && |r.wal.fileInfoSet| == 6
      && Open(WriteMeta(r.wal)).Success?
      && Serialize(Open(WriteMeta(r.wal)).value) == Serialize(r.wal)
  {
    FreshValid();
    RollTimesSucceeds(Fresh(), 6, now);
    ReopenRoundTrip(RollTimes(Fresh(), 6, now).wal);
  }

  /** `walWrite` called on `recs` at the versions following `lastVer`,
      stopping at the first refusal. */
  function WriteAll(w: Wal, recs: seq<Record>, now: int): Ret
    decreases |recs|
  {
    if |recs| == 0 then Ret(CodeOk, w)
    else
      var r := Write(w, w.vers.lastVer + 1, recs[0].msgType, recs[0].body, now);
      if r.code != CodeOk then r else WriteAll(r.wal, recs[1..], now)
  }

  /** Writing records at consecutive versions always succeeds: `lastVer`
      advances by their number and the other cursors are untouched. */
  lemma {:induction false} WriteAllAdvances(w: Wal, recs: seq<Record>, now: int)
    requires Valid(w)
    ensures var r := WriteAll(w, recs, now);
      && r.code == CodeOk
      && Valid(r.wal)
      && r.wal.vers.lastVer == w.vers.lastVer + |recs|
      && r.wal.vers.commitVer == w.vers.commitVer
      && r.wal.vers.snapshotVer == w.vers.snapshotVer
      && r.wal.vers.verInSnapshotting == w.vers.verInSnapshotting
      && (w.vers.firstVer != NoVer ==> r.wal.vers.firstVer == w.vers.firstVer)
      && (w.vers.firstVer == NoVer && |recs| > 0 ==> r.wal.vers.firstVer == 0)
    decreases |recs|
  {
    if |recs| > 0 {
      var ver := w.vers.lastVer + 1;
      var r1 := Write(w, ver, recs[0].msgType, recs[0].body, now);
      assert WriteAll(w, recs, now) == WriteAll(r1.wal, recs[1..], now);
      WritePreservesValid(w, ver, recs[0].msgType, recs[0].body, now);
      WriteAllAdvances(r1.wal, recs[1..], now);
    }
  }

  /** The first step of `WriteAll` on a non-empty list: one accepted write
      of the first record at the next version. */
  lemma WriteAllStep(w: Wal, recs: seq<Record>, now: int)
    requires |recs| > 0
    ensures var ver := w.vers.lastVer + 1;
      var w1 := Write(w, ver, recs[0].msgType, recs[0].body, now).wal;
      && w1.vers.lastVer == ver
      && w1.records == w.records[ver := recs[0]]
      && WriteAll(w, recs, now) == WriteAll(w1, recs[1..], now)
  {
  }

  /** Records already stored below the next version survive further writes. */
  lemma {:induction false} WriteAllKeeps(w: Wal, recs: seq<Record>, now: int)
    requires forall u | u in w.records :: u <= w.vers.lastVer
    ensures var r := WriteAll(w, recs, now);
      forall u | u in w.records :: u in r.wal.records && r.wal.records[u] == w.records[u]
    decreases |recs|
  {
    if |recs| > 0 {
      var ver := w.vers.lastVer + 1;
      var w1 := Write(w, ver, recs[0].msgType, recs[0].body, now).wal;
      WriteAllStep(w, recs, now);
      WriteAllKeeps(w1, recs[1..], now);
    }
  }

  /** Every record lands at its own version, after `lastVer`. */
  lemma {:induction false} WriteAllStores(w: Wal, recs: seq<Record>, now: int)
    requires forall u | u in w.records :: u <= w.vers.lastVer
    ensures var r := WriteAll(w, recs, now);
      forall v | w.vers.lastVer < v <= w.vers.lastVer + |recs| ::
        v in r.wal.records && r.wal.records[v] == recs[v - w.vers.lastVer - 1]
    decreases |recs|
  {
    if |recs| > 0 {
      var ver := w.vers.lastVer + 1;
      var w1 := Write(w, ver, recs[0].msgType, recs[0].body, now).wal;
      WriteAllStep(w, recs, now);
      WriteAllStores(w1, recs[1..], now);
      WriteAllKeeps(w1, recs[1..], now);
      var r1 := WriteAll(w1, recs[1..], now);
      assert ver in w1.records && w1.records[ver] == recs[0];
      forall v | ver <= v <= w.vers.lastVer + |recs|
        ensures v in r1.wal.records && r1.wal.records[v] == recs[v - ver]
      {
        if v > ver {
          assert recs[1..][v - ver - 1] == recs[v - ver];
        }
      }
    }
  }

  /** A log after writing versions 0 .. n-1 into a fresh one. */
  lemma WrittenFromFresh(recs: seq<Record>, now: int)
    requires |recs| > 0
    ensures var r := WriteAll(Fresh(), recs, now);
      && r.code == CodeOk
      && Valid(r.wal)
      && r.wal.vers.firstVer == 0
      && r.wal.vers.lastVer == |recs| - 1
      && r.wal.vers.commitVer == NoVer
      && (forall k | 0 <= k < |recs| :: k in r.wal.records && r.wal.records[k] == recs[k])
  {
    FreshValid();
    WriteAllAdvances(Fresh(), recs, now);
    WriteAllStores(Fresh(), recs, now);
  }

  /** After a successful write, a write that skips a version is refused and
      leaves `lastVer` where it was (tests `write` and `readOldMeta`). */
  lemma SkippingWriteRefused(w: Wal, ver: int, msgType: byte, body: seq<byte>, now: int)
    requires Write(w, ver, msgType, body, now).code == CodeOk
    ensures var w1 := Write(w, ver, msgType, body, now).wal;
      && w1.vers.lastVer == ver
      && Write(w1, ver + 2, msgType, body, now).code == CodeErr
      && Write(w1, ver + 2, msgType, body, now).wal.vers.lastVer == ver
  {
  }

  /** Ten writes, close, reopen: the reopened log starts at 0, ends at 9
      and serialises exactly as before (test `readOldMeta`). */
  lemma ReadOldMeta(recs: seq<Record>, now: int)
    requires |recs| == 10
    ensures var w := WriteAll(Fresh(), recs, now).wal;
      && Open(WriteMeta(w)).Success?
      && Open(WriteMeta(w)).value.vers.firstVer == 0
      && Open(WriteMeta(w)).value.vers.lastVer == 9
      && Serialize(Open(WriteMeta(w)).value) == Serialize(w)
  {
    WrittenFromFresh(recs, now);
    ReopenRoundTrip(WriteAll(Fresh(), recs, now).wal);
  }

  /** Ten writes, then rollback to 5 and to 3: `lastVer` becomes 4, then 2,
      and stays 2 across a metadata write and reopen (test `rollback`). */
  lemma RollbackScenario(recs: seq<Record>, now: int)
    requires |recs| == 10
    ensures var w := WriteAll(Fresh(), recs, now).wal;
      var r5 := Rollback(w, 5);
      var r3 := Rollback(r5.wal, 3);
      && r5.code == CodeOk && r5.wal.vers.lastVer == 4
      && r3.code == CodeOk && r3.wal.vers.lastVer == 2
      && Open(WriteMeta(r3.wal)).Success?
      && Open(WriteMeta(r3.wal)).value.vers.firstVer == 0
      && Open(WriteMeta(r3.wal)).value.vers.lastVer == 2
  {
    WrittenFromFresh(recs, now);
    var w := WriteAll(Fresh(), recs, now).wal;
    RollbackPreservesValid(w, 5);
    RollbackPreservesValid(Rollback(w, 5).wal, 3);
    ReopenRoundTrip(Rollback(Rollback(w, 5).wal, 3).wal);
  }

  /** Each record written and then committed at its own version, as the
      test `roll` does, stopping at the first refused write. */
  function WriteCommitAll(w: Wal, recs: seq<Record>, now: int): Ret
    decreases |recs|
  {
    if |recs| == 0 then Ret(CodeOk, w)
    else
      var ver := w.vers.lastVer + 1;
      var r := Write(w, ver, recs[0].msgType, recs[0].body, now);
      if r.code != CodeOk then r
      else WriteCommitAll(Commit(r.wal, ver).wal, recs[1..], now)
  }

  /** Writing and committing each version in turn succeeds and leaves
      `commitVer` equal to `lastVer`, advanced by the number of records. */
  lemma {:induction false} WriteCommitAllAdvances(w: Wal, recs: seq<Record>, now: int)
    requires Valid(w)
    ensures var r := WriteCommitAll(w, recs, now);
      && r.code == CodeOk
      && Valid(r.wal)
      && r.wal.vers.lastVer == w.vers.lastVer + |recs|
      && (|recs| > 0 ==> r.wal.vers.commitVer == r.wal.vers.lastVer)
      && r.wal.vers.snapshotVer == w.vers.snapshotVer
      && r.wal.vers.verInSnapshotting == w.vers.verInSnapshotting
    decreases |recs|
  {
    if |recs| > 0 {
      var ver := w.vers.lastVer + 1;
      var r1 := Write(w, ver, recs[0].msgType, recs[0].body, now);
      assert r1.code == CodeOk;
      var w1 := r1.wal;
      var c := Commit(w1, ver);
      assert c.code == CodeOk;
      assert WriteCommitAll(w, recs, now) == WriteCommitAll(c.wal, recs[1..], now);
      WritePreservesValid(w, ver, recs[0].msgType, recs[0].body, now);
      CommitPreservesValid(w1, ver);
      WriteCommitAllAdvances(c.wal, recs[1..], now);
    }
  }

  /** Test `roll`: commit 0..99, snapshot at 99, a stale write at 5 is
      refused, commit 100..199, and a second snapshot at 199 succeeds. */
  lemma SnapshotScenario(first: seq<Record>, second: seq<Record>, body: seq<byte>, now: int)
    requires |first| == 100 && |second| == 100
    ensures var w1 := WriteCommitAll(Fresh(), first, now);
      var b1 := BeginTakeSnapshot(w1.wal, 99);
      var e1 := EndTakeSnapshot(b1.wal);
      var stale := Write(e1.wal, 5, 0, body, now);
      var w2 := WriteCommitAll(e1.wal, second, now);
      var b2 := BeginTakeSnapshot(w2.wal, 199);
      var e2 := EndTakeSnapshot(b2.wal);
      && w1.code == CodeOk && w1.wal.vers.lastVer == 99 && w1.wal.vers.commitVer == 99
      && b1.code == CodeOk && b1.wal.vers.verInSnapshotting == 99
      && e1.code == CodeOk && e1.wal.vers.snapshotVer == 99 && e1.wal.vers.verInSnapshotting == NoVer
      && stale.code != CodeOk
      && w2.code == CodeOk && w2.wal.vers.commitVer == 199
      && b2.code == CodeOk
      && e2.code == CodeOk && e2.wal.vers.snapshotVer == 199
  {
    FreshValid();
    WriteCommitAllAdvances(Fresh(), first, now);
    var w1 := WriteCommitAll(Fresh(), first, now).wal;
    BeginTakeSnapshotPreservesValid(w1, 99);
    var b1 := BeginTakeSnapshot(w1, 99).wal;
    EndTakeSnapshotPreservesValid(b1);
    var e1 := EndTakeSnapshot(b1).wal;
    WriteCommitAllAdvances(e1, second, now);
  }

  /** Test `readHandleRead`: after writing versions 0 .. n-1 into a fresh
      log, reading any of them through any handle returns that version's
      exact type, length and bytes and leaves the handle just past it. */
  lemma ReadAfterWrite(recs: seq<Record>, now: int, h: ReadHandle, ver: int)
    requires 0 <= ver < |recs|
    ensures var w := WriteAll(Fresh(), recs, now).wal;
      var r := ReadWithHandle(h, w, ver);
      && r.code == CodeOk
      && r.handle.curVersion == ver + 1
      && r.handle.head == Some(Head(ver, recs[ver].msgType, |recs[ver].body|, recs[ver].body))
  {
    WrittenFromFresh(recs, now);
  }
}
